=== FILE: README.md ===
# Behaviour-tree node engine, modelled in Dafny

This project models the node engine of WestWorld-BehaviorTree
(`behavior_tree/behavior_node.h`) and the shared blackboard it reads
(`blackboard/blackboard.h`), and proves properties of the model.

- **The engine.** Every node runs the same four-state machine: `Run` and `Reset`
  drive `OnInitialize`, `Update` and `OnTerminate`. Five node kinds sit on top of it:
  - leaf actions;
  - the precondition decorator, with its four abort modes;
  - the selector, a priority fallback with a re-evaluation pass that can preempt the
    running child;
  - the sequence, an AND-chain;
  - the parallel node, which counts successes and failures against a threshold.
- **The blackboard.** The agent's position, its destination, and its energy, kept in a
  32-bit unsigned integer.

## How the model is built

- **Trees are values.** `Nodes.Node` is an immutable tree. Each node carries the state
  the source keeps across ticks:
  - its status;
  - a composite's cursor (`children_node_index_`);
  - a selector's re-evaluation flags;
  - a parallel node's done flags and its two counters.
- **Run and Reset are pure functions.** `Engine.Run` and `Engine.Reset` return the new
  tree, the status, the new shared context and the list of lifecycle events, in order.
  An event is `Initialized(id)` or `Terminated(id, status)`.
- **Termination.** Recursion is bounded by the tree's state-erased skeleton
  (`Nodes.ShapeOf`), which no Run or Reset changes.
- **Leaves and guards are parameters.** The shared context is a type parameter `C`.
  Leaf actions and guard functions come in through an `Engine.Env`:
  - a guard function, by guard id;
  - the leaf `OnInitialize` hook, by leaf id;
  - the leaf `Update` hook, by leaf id.
  Each leaf action in the program is timed by the wall clock, so the model treats it
  as an oracle. All four of them have an empty `OnTerminate`.
- **Sideways preemption.** In the source, `PreconditionNode::Reevaluation` writes into
  its parent selector (`behavior_node.h:583-593`). It resets the child at the parent's
  cursor and moves the cursor. The model splits this write in two:
  1. The selector passes a flagged precondition at index `i` a slot
     `Sibling(i, cursor, cancel)`, where `cancel` holds the events of resetting the
     child at the cursor.
  2. The precondition puts those events first in its log, before its own child runs,
     exactly where the source calls `Reset`. The selector recomputes the same pure
     decision (`Engine.Reevaluation`) and applies the reset and the cursor move to its
     own state.

  A flagged precondition at an index below the cursor is only ever run from that
  pass (`behavior_node.h:358-362`), so the split loses nothing.
- **Well-formedness.** `Nodes.Valid` holds for every tree built as the program builds
  one, and every Run and Reset keeps it. It requires:
  - a cursor inside the child list;
  - one re-evaluation flag per child, equal to what `SelectorNode::AddChildren`
    computes;
  - `1 <= threshold <= size` for a parallel node;
  - the parallel counters matching the done flags.
- **Preemption order.** A preempting precondition resets the child at the old cursor
  before its own child runs, whatever that child then returns
  (`behavior_node.h:586-590`). The selector therefore never sees the old cursor child
  RUNNING once a preemption has started.
- **Where the code and its comments differ, the model follows the code:**
  - **Parallel failure cut-off.** A parallel node fails once failures reach
    `size - threshold` (`behavior_node.h:525`). This is not `size - threshold + 1`,
    the point at which success would become unreachable.
  - **False guard above the cursor.** A LOW_PRIORITY or BOTH precondition above its
    selector's cursor is denied at once when its guard is false
    (`behavior_node.h:594-597`). It does not fall through to the SELF/BOTH rule.
  - **NONE mode.** Abort mode NONE still checks the guard whenever the child is not
    RUNNING (`behavior_node.h:602-611`). The comment at `behavior_node.h:43` says the
    guard is ignored.
  - **Energy below zero.** `adjustEnergy` wraps modulo 2^32 and then caps at 100
    (see Findings).

## Model

| member | source | states |
|---|---|---|
| Engine.Run | behavior_tree/behavior_node.h:82-108 | Run keeps the tree well formed and its shape fixed, stores the returned status in the node, logs only events of the node's own subtree (plus a cancelled sibling's), and a precondition that Reevaluation denies returns FAILURE |
| Engine.Begin | behavior_tree/behavior_node.h:87-92 | a RUNNING node passes through with its context unchanged; any other node gets exactly what OnInitialize leaves (Reinitialized); a precondition is never touched; the result is well formed with the same status and shape |
| Engine.Conclude | behavior_tree/behavior_node.h:96-107 | the status Update returned is stored and returned; the log is the Update log, followed, iff that status is not RUNNING, by the node's own termination with exactly that status and then only descendants' events |
| Engine.Initialize | behavior_tree/behavior_node.h:487-494 | OnInitialize resets only the per-activation state: a selector or sequence cursor goes to 0 and a parallel node's counters and done flags are cleared, while id, status, children, re-evaluation flags and threshold are kept; a leaf or precondition node is unchanged and only a leaf's start hook changes the context |
| Engine.Update | behavior_tree/behavior_node.h:244-254 | every kind's Update leaves a node that is well formed once it carries the returned status, has the same shape and is accepted by its OnTerminate; it logs only descendants' events plus a cancelled sibling's; a denied precondition returns FAILURE |
| Engine.Select | behavior_tree/behavior_node.h:351-399 | the selector's Update with children keeps the Update guarantees across the re-evaluation pass followed, unless that pass decided, by the resume pass |
| Engine.Follow | behavior_tree/behavior_node.h:435-459 | the sequence's Update with children keeps the Update guarantees across the sequence pass |
| Engine.Gather | behavior_tree/behavior_node.h:496-535 | the parallel node's Update with children keeps the Update guarantees across the parallel pass, the counters staying in step with the done flags |
| Engine.Reevaluation | behavior_tree/behavior_node.h:566-612 | the decision table: preempt iff the node is a LOW_PRIORITY/BOTH child of a selector above its cursor and the guard holds; a false guard above the cursor denies; otherwise a false guard denies exactly when the mode is SELF/BOTH or the child is not RUNNING |
| Engine.Reevaluate | behavior_tree/behavior_node.h:358-377 | the re-evaluation pass preempts exactly at the first flagged child before the cursor whose guard holds on the entry context, every earlier flagged child having been denied: its guard is false, and it is now the FAILURE node of its own Run with the cancelling sibling slot. Without preemption the cursor, its child and the context are unchanged, every unflagged child is untouched (never run), and the events are exactly the denied children's Runs in index order. With preemption the old cursor child is its Reset state; the preempting child is the node of its own Run with the cancelling sibling slot; the pass ends on that Run's context; the events are exactly the denied children's Runs in index order followed by that Run's; the verdict is that Run's status unless FAILURE (then the cursor is one past it); every child other than these is untouched |
| Engine.Contest | behavior_tree/behavior_node.h:360-376 | one flagged child below the cursor is Run with the sibling slot: it preempts iff its guard holds; a denied child fails with the context unchanged, stays the FAILURE node of its Run and has its Run's events first in the pass, whether or not a later child preempts; the pass goes on from the next index; either way the pass guarantee (including the preempting Run's node, context, events and verdict) holds from its index on |
| Engine.Refused | behavior_tree/behavior_node.h:360-376 | a flagged child that was denied (guard false, FAILURE) hands the pass on to the next index with the same context, and the pass guarantee follows from its index on |
| Engine.Preempted | behavior_tree/behavior_node.h:362-374 | the preempting child's Run, with the cursor child's reset events as the cancellation, decides the pass: its node replaces the child, the cursor child becomes its Reset state, the context and events are that Run's, and the verdict is its status with the cursor on it, or none with the cursor one past it on FAILURE |
| Engine.PreconditionDenied | behavior_tree/behavior_node.h:252-265 | a denied precondition returns FAILURE with the context unchanged, and its OnTerminate(FAILURE) resets the child |
| Engine.Resume | behavior_tree/behavior_node.h:379-398 | the resume pass returns the first non-FAILURE result from the cursor on, with the cursor left on that child and every child between it and the cursor failed; when every child fails it returns FAILURE with the cursor at 0 |
| Engine.Chain | behavior_tree/behavior_node.h:441-458 | the sequence loop returns the first non-SUCCESS result as it is, with the cursor on that child; when all succeed the cursor goes back to 0 and SUCCESS is returned |
| Engine.Spread | behavior_tree/behavior_node.h:502-534 | the parallel loop returns at the first child whose conclusion crosses a threshold, leaving every later child and done flag untouched; SUCCESS means successes exactly at the threshold with failures below the cut; FAILURE means successes below the threshold and failures exactly at size - threshold (at least one); RUNNING iff it ran past the last child, with the bookkeeping invariant intact; done children are not run again, counters never decrease, and a newly done child concluded |
| Engine.Visit | behavior_tree/behavior_node.h:505-529 | one not-done child is Run and counted, and the first-crossing guarantee of the parallel loop holds from its index on |
| Engine.Settle | behavior_tree/behavior_node.h:510-529 | a child that has run is counted as Tally says; the loop returns at that child exactly when its conclusion crosses a threshold and otherwise goes on with the next child, so the first-crossing guarantee holds from its index on |
| Engine.Tally | behavior_tree/behavior_node.h:510-525 | a child is marked done iff it concluded, its own counter goes up by one, every other done flag is unchanged, and the done count still equals successes + failures |
| Engine.OnTerminate | behavior_tree/behavior_node.h:256-269 | OnTerminate logs the node's own termination first, then only descendants' events, and keeps the tree well formed with the same status |
| Engine.Reset | behavior_tree/behavior_node.h:137-146 | Reset leaves a non-RUNNING node and the log untouched; a RUNNING node becomes IDLE, its first event is its own termination with IDLE, and the rest are descendants' events |
| Engine.ResetAll | behavior_tree/behavior_node.h:548-550 | every child from the index on ends not RUNNING, children before it are untouched, and a child that was not RUNNING is unchanged |
| Lifecycle.RunLifecycle | behavior_tree/behavior_node.h:82-108 | in one Run the node's own events are an initialisation iff it was not RUNNING, followed by a termination with exactly the returned status iff that status is not RUNNING |
| Lifecycle.RunReturnsUpdate | behavior_tree/behavior_node.h:96-107 | the status Run returns and stores is exactly Update's result |
| Lifecycle.ResetLifecycle | behavior_tree/behavior_node.h:137-146 | Reset terminates a RUNNING node exactly once, with IDLE, and gives any other node no event |
| Lifecycle.ApplyAlternates | behavior_tree/behavior_node.h:82-146 | one Run or Reset of the root opens an activation only if none is open and closes one only if one is open |
| Lifecycle.DriveAlternates | behavior_tree/behavior_node.h:82-146 | over any sequence of Runs and Resets of the root, its initialisations and terminations strictly alternate, and an activation is open exactly while the root is RUNNING |
| Composites.EmptyCompositeSucceeds | behavior_tree/behavior_node.h:353-355 | a selector, sequence or parallel node with no children returns SUCCESS |
| Composites.LeafRun | behavior_tree/behavior_node.h:82-108 | a leaf runs its OnInitialize hook unless RUNNING, then its Update hook, and returns and stores that hook's status |
| Composites.PreconditionGate | behavior_tree/behavior_node.h:244-254 | Update returns the child's Run status, state and context iff Reevaluation allows it, and FAILURE with nothing run and no events otherwise |
| Composites.PreemptCancelsFirst | behavior_tree/behavior_node.h:583-593 | a preempting precondition's Update logs the reset of the sibling at the cursor strictly before any event of its own child's run, with nothing else |
| Composites.PreemptingRunCancelsFirst | behavior_tree/behavior_node.h:82-108 | the whole Run of a preempting precondition begins with its OnInitialize, then the cancelled sibling's reset, then its child's run, in that order and adjacent |
| Composites.PreconditionTerminate | behavior_tree/behavior_node.h:256-269 | OnTerminate resets the child on IDLE and FAILURE and does nothing to it on SUCCESS |
| Composites.NoneModeStillGuards | behavior_tree/behavior_node.h:601-611 | under abort mode NONE a false guard denies when the child is not RUNNING, and a RUNNING child is always allowed |
| Composites.AboveCursorFalseGuardDenies | behavior_tree/behavior_node.h:583-597 | a LOW_PRIORITY/BOTH precondition above its selector's cursor with a false guard is denied, even under BOTH with a RUNNING child |
| Composites.SelectorFallback | behavior_tree/behavior_node.h:379-398 | a selector entered at cursor 0 returns the first non-FAILURE child result, with every earlier child failed; when all fail it returns FAILURE with the cursor at 0 |
| Composites.SelectorOutcome | behavior_tree/behavior_node.h:351-399 | from any cursor, the cursor stays inside the child list; a non-FAILURE result is the status of the child at the new cursor; FAILURE means the cursor is back at 0 and the last child failed |
| Composites.SelectorPreemptResets | behavior_tree/behavior_node.h:586-590 | when the selector ends left of its old cursor with a non-FAILURE result, the child at the old cursor has been Reset and is not RUNNING |
| Composites.SelectorPreempts | behavior_tree/behavior_node.h:358-377 | the re-evaluation pass preempts iff some flagged child before the cursor has a guard that holds, and it does so at the first such child, every flagged child before it having a false guard and having ended FAILURE; without preemption the cursor, the child at the cursor and the context are unchanged and every flagged child before the cursor ended FAILURE |
| Composites.SelectorCancelsFirst | behavior_tree/behavior_node.h:358-377 | when the selector's first loop preempts at child j, the child at the old cursor is its Reset state and the loop's events contain, adjacent and in this order, child j's OnInitialize, the old cursor child's reset and the run of child j's own child |
| Composites.ResumeToLast | behavior_tree/behavior_node.h:379-398 | when every child from i up to the last is a precondition whose guard is false and whose child is not RUNNING, the resume pass returns the last child's result |
| Composites.ClosedStep | behavior_tree/behavior_node.h:382-397 | a closed precondition in the resume pass fails without touching the context; the children afterwards are exactly the old ones with that child replaced by its Run's node, and the pass carries on from the next child to the same result |
| Composites.ResumeThreads | behavior_tree/behavior_node.h:379-397 | one step of the resume loop, unfolding its definition once in terms of the child's own Run: the cursor child runs as the sibling at the cursor on the loop's context; a non-FAILURE result or the last child's FAILURE ends the loop with exactly that child replaced and its context and events; otherwise the loop continues from the next child on the context that child left, and its events are that child's followed by the rest |
| Composites.ChainThreads | behavior_tree/behavior_node.h:441-458 | one step of the sequence loop, unfolding its definition once in terms of the child's own Run: the cursor child runs detached on the loop's context; a non-SUCCESS result or the last child's SUCCESS ends the loop with exactly that child replaced and its context and events; otherwise the loop continues from the next child on that child's context, with its events following that child's |
| Composites.SpreadThreads | behavior_tree/behavior_node.h:502-534 | one step of the parallel loop, unfolding its definition once in terms of the child's own Run: a done child is skipped with nothing run; otherwise the child runs detached on the loop's context and is counted, and SettledThreads' guarantee holds for that run |
| Composites.SettledThreads | behavior_tree/behavior_node.h:509-527 | the counting step of the parallel loop, unfolded once: a counted child that reaches a threshold ends the loop at its index with its status, context and events and only it replaced; otherwise the loop continues from the next child on the counters it left and on its context, with its events followed by the rest |
| Composites.ClosedDenied | behavior_tree/behavior_node.h:601-607 | a precondition whose guard is false and whose child is not RUNNING returns FAILURE and leaves the context unchanged |
| Composites.LastChildDecides | behavior_tree/behavior_node.h:346-399 | a fresh selector activation whose children before the last are all closed preconditions returns what its last child returns |
| Composites.SelectFromStart | behavior_tree/behavior_node.h:351-399 | a selector at cursor 0 has an empty re-evaluation pass, so its Update returns what the resume pass from the first child returns |
| Composites.SequenceOutcome | behavior_tree/behavior_node.h:435-459 | the sequence returns the first non-SUCCESS result from the cursor on as it is, with the cursor on that child and every child between them succeeded; all SUCCESS means the cursor is back at 0 |
| Composites.FreshRestart | behavior_tree/behavior_node.h:429-432 | a fresh activation of a selector or sequence behaves exactly as if its cursor were 0, whatever it was |
| Composites.ParallelOutcome | behavior_tree/behavior_node.h:496-535 | SUCCESS iff successes reach the threshold (then exactly equal to it); FAILURE iff successes are below it and failures, at least one, reach size - threshold; a SUCCESS or FAILURE comes from a child newly done this tick, with every later child and done flag untouched; RUNNING leaves some child not done; counters never decrease, done children are not run again, and a newly done child concluded |
| Composites.ResetIdempotent | behavior_tree/behavior_node.h:137-146 | a second Reset has no effect and no events |
| Composites.ResetAllEach | behavior_tree/behavior_node.h:548-550 | resetting the children one by one leaves each child exactly as its own Reset would |
| Composites.ResetPropagates | behavior_tree/behavior_node.h:137-146 | Reset of a RUNNING node makes it IDLE; a selector or sequence resets only the child at its cursor, a precondition its child, a parallel node every child |
| Composites.CompositeTerminate | behavior_tree/behavior_node.h:401-551 | on SUCCESS or FAILURE a selector or sequence OnTerminate changes nothing and logs only the node's own termination; on IDLE it resets exactly the child at the cursor; a parallel node's OnTerminate resets every child whatever the status, leaving none RUNNING |
| Assembly.Flag | behavior_tree/behavior_node.h:330-338 | a child's re-evaluation flag is set iff the child is a precondition whose abort mode is LOW_PRIORITY or BOTH |
| Assembly.NewPrecondition | behavior_tree/behavior_node.h:200-204 | a precondition given a well-formed child is well formed and IDLE |
| Assembly.AddChild | behavior_tree/behavior_node.h:296-300 | AddChildren appends the child, keeps kind, id, status, cursor and threshold, and for a selector appends the child's flag |
| Assembly.AddChildStaged | behavior_tree/behavior_node.h:330-338 | adding a well-formed child keeps a composite under assembly well formed, with the flags in step with the children |
| Assembly.Attach | behavior_tree/behavior_node.h:296-300 | adding a list of children appends exactly that list and keeps kind, id, status, cursor and threshold |
| Assembly.AttachStaged | behavior_tree/behavior_node.h:296-338 | any number of AddChildren calls with well-formed children keep a composite under assembly well formed |
| Assembly.AttachFlags | behavior_tree/behavior_node.h:330-338 | after assembly, the selector's flag for each added child is set iff it is a LOW_PRIORITY or BOTH precondition, and earlier flags are kept |
| Assembly.StagedValid | behavior_tree/behavior_node.h:480-482 | a composite under assembly is well formed and IDLE once a parallel node has at least `threshold` children |
| Blackboard.FreshState | blackboard/blackboard.h:16-17 | a new blackboard is at home with energy 100: home, not at the mine, school not over, energy not low |
| Blackboard.SchoolOverMeaning | blackboard/blackboard.h:21-23 | isSchoolOver holds iff the agent is at school, or at the mine with a destination set to something other than the mine |
| Blackboard.SetPosition | blackboard/blackboard.h:27 | after setPosition(p), isHome holds iff p is HOME and isMine iff p is MINE; destination and energy are unchanged |
| Blackboard.SetDestination | blackboard/blackboard.h:28 | after setDestination(d) the destination is d; position and energy are unchanged |
| Blackboard.AdjustEnergy | blackboard/blackboard.h:29-34 | a sum in [0, 100] is stored exactly, a sum above 100 gives 100, a sum below 0 wraps and gives 100, the result never exceeds 100, and only energy changes |
| Blackboard.AdjustAllBounded | blackboard/blackboard.h:29-49 | energy stays within 0..100 under any sequence of adjustEnergy calls, and position and destination are unchanged |
| Blackboard.ClampEnergy | blackboard/blackboard.h:29-34 | the intended saturating update: a sum in [0, 100] is stored, below 0 gives 0, above 100 gives 100 |
| Blackboard.AdjustDiffersBelowZero | blackboard/blackboard.h:29-34 | from a valid energy, adjustEnergy as written agrees with the saturating update iff the sum is not negative |
| Blackboard.MiningWrapsToFull | blackboard/blackboard.h:29-34 | at energy 30, adjustEnergy(-40) leaves energy 100 where the saturating update leaves 0 |
| Scenario.MainTree | main.cpp:23-51 | position_selector is a well-formed IDLE selector with is_schoolover_condition, is_mine_condition and home_selector as its children, in that order |
| Scenario.HomeBranch | main.cpp:46-49 | home_selector is a well-formed IDLE selector over is_energy_low_condition (guarding home_parallel) and go_mine_from_home_action |
| Scenario.MainTreeFlags | main.cpp:37-39 | of the root's children only is_schoolover_condition (abort BOTH) is re-evaluated |
| Scenario.RootClosed | main.cpp:24-27 | on a fresh blackboard both guarded branches of position_selector are closed: their guards are false and their children are not RUNNING |
| Scenario.HomeClosed | main.cpp:34-35 | on a fresh blackboard home_selector's energy guard is false and its child is not RUNNING |
| Scenario.HomeTick | main.cpp:46-47 | home_selector on a fresh blackboard returns go_mine_from_home_action's result |
| Scenario.FirstTick | main.cpp:37-51 | the first tick of the whole tree from a fresh blackboard returns go_mine_from_home_action's result |

## Left out

- The tick driver (`behavior_tree/behavior_tree.h`): a wall-clock loop with `sleep_for`
  and console output. `Lifecycle.Drive` stands in for it as any sequence of root Runs and
  Resets.
- The leaf actions (`action/*.h`): their completion depends on the elapsed wall-clock
  time. Their `OnInitialize` and `Update` are oracles in `Engine.Env`, and their
  blackboard effects are left to those oracles.
- Logging: `NodeInfo`, the `std::cerr` diagnostic and `BlackBoard::Info` have no effect
  on behaviour.
- The `frame` counter of the blackboard, which only the tick driver uses.
- `shared_ptr`, `enable_shared_from_this`, `dynamic_pointer_cast`, parent pointers,
  `SetParent`/`GetParent`/`GetChild`: the tree is a value, and a node's place under a
  selector is passed down as an `Engine.Slot`.
- The "not found in parent" branch of `Reevaluation` (`behavior_node.h:576-579`): in a
  tree value a child is always found among its parent's children.
- Ill-formed setups are excluded by `Nodes.Valid` and the constructors:
  - a precondition with no child, which the source would dereference as null;
  - a parallel threshold outside `[1, size]`, where `size - threshold` wraps.
- The uninitialised `destination_` is modelled as `None` rather than an invented value.
  No comparison with it holds.
- `SetChildrenIndex` called from outside the engine: only the preemption inside
  `Reevaluation` calls it, and the selector applies that move itself.
- Engine.Update: its contract states only the invariants it keeps and the denied
  precondition's FAILURE. What each kind's Update returns is stated by the Composites
  lemmas.
- Engine.OnTerminate: its contract states the event order and the invariants it keeps.
  What happens to the children is stated per kind by `Composites.PreconditionTerminate`
  and `Composites.CompositeTerminate`.
- Lifecycle.DriveAlternates: alternation across ticks is proved for the root's own
  events only. Inner nodes are covered one Run at a time by `Lifecycle.RunLifecycle`,
  because node ids are not required to be unique: two nodes named alike would share
  one event stream.

## Findings

| source | as written | input that shows it | evidently intended | confidence | as-written member | corrected member |
|---|---|---|---|---|---|---|
| blackboard/blackboard.h:29-34 | `energy_` is unsigned, so `energy_ += v` wraps modulo 2^32 when the sum is negative, the cap at 100 then applies, and the `energy_ < 0` clamp can never fire | energy 30, `adjustEnergy(-40)`: the energy becomes 100 instead of 0 | a saturating add into 0..100, as the `< 0` check and the "0~100" comment on `energy_` say | not executed; the program's own schedule (100, 60, 20, then rest) never subtracts past 0 | Blackboard.AdjustEnergy, Blackboard.MiningWrapsToFull | Blackboard.ClampEnergy, Blackboard.AdjustDiffersBelowZero |

=== FILE: assembly.dfy ===
/**
  Building a tree the way the program wires one: node constructors, SetChild and
  AddChildren (behavior_tree/behavior_node.h:181-338, 423-482). A selector records,
  for each child it is given, whether that child must be re-evaluated while a
  lower-priority child runs.
*/
module Assembly {
  import opened Wrappers
  import opened Nodes

  /** The flag SelectorNode::AddChildren pushes for a new child. */
  function Flag(c: Node): (b: bool)
    ensures b <==> Reevaluates(ShapeOf(c))
  {
    ShapeFacts(c);
    c.Precondition? && (c.abort == AbortLowPriority || c.abort == AbortBoth)
  }

  function NewAction(id: nat): Node
  {
    Action(id, Idle)
  }

  /** A PreconditionNode together with its SetChild. */
  function NewPrecondition(id: nat, guard: Option<nat>, abort: Abort, child: Node): (r: Node)
    requires Valid(child)
    ensures Valid(r) && r.status == Idle && ShapeOf(r) == Gate(id, guard, abort, ShapeOf(child))
  {
    Precondition(id, Idle, guard, abort, child)
  }

  function NewSelector(id: nat): Node
  {
    Selector(id, Idle, [], 0, [])
  }

  function NewSequence(id: nat): Node
  {
    Sequence(id, Idle, [], 0)
  }

  /** A ParallelNode; a threshold of 0 is an ill-formed setup and is excluded. */
  function NewParallel(id: nat, threshold: nat): Node
    requires threshold >= 1
  {
    Parallel(id, Idle, [], threshold, [], 0, 0)
  }

  /** A composite under assembly: IDLE at cursor 0, flags in step with the children, every child well formed. */
  ghost predicate Staged(n: Node)
  {
    match n
    case Selector(_, st, kids, cur, flags) =>
      st == Idle && cur == 0 && FlagsMatch(flags, ShapesOf(kids)) && AllValid(kids)
    case Sequence(_, st, kids, cur) => st == Idle && cur == 0 && AllValid(kids)
    case Parallel(_, st, kids, t, _, _, _) => st == Idle && t >= 1 && AllValid(kids)
    case _ => false
  }

  lemma Constructed(id: nat, threshold: nat)
    requires threshold >= 1
    ensures Staged(NewSelector(id)) && Staged(NewSequence(id)) && Staged(NewParallel(id, threshold))
    ensures Valid(NewAction(id))
  {
  }

  /** CompositeNode::AddChildren, and for a selector the reevaluation flag of the new child. */
  function AddChild(n: Node, c: Node): (r: Node)
    requires n.Selector? || n.Sequence? || n.Parallel?
    ensures r.Selector? == n.Selector? && r.Sequence? == n.Sequence? && r.Parallel? == n.Parallel?
    ensures r.id == n.id && r.status == n.status && r.children == n.children + [c]
    ensures (n.Selector? || n.Sequence?) ==> r.cursor == n.cursor
    ensures n.Selector? ==> r.reevaluate == n.reevaluate + [Flag(c)]
    ensures n.Parallel? ==> r.threshold == n.threshold
  {
    match n
    case Selector(id, st, kids, cur, flags) => Selector(id, st, kids + [c], cur, flags + [Flag(c)])
    case Sequence(id, st, kids, cur) => Sequence(id, st, kids + [c], cur)
    case Parallel(id, st, kids, t, done, s, f) => Parallel(id, st, kids + [c], t, done, s, f)
  }

  lemma ShapesAppend(ns: seq<Node>, c: Node)
    ensures ShapesOf(ns + [c]) == ShapesOf(ns) + [ShapeOf(c)]
  {
    assert forall k :: 0 <= k < |ns| ==> (ns + [c])[k] == ns[k];
  }

  /** Adding a well-formed child keeps a composite under assembly well formed, flags included. */
  lemma AddChildStaged(n: Node, c: Node)
    requires Staged(n) && Valid(c)
    ensures Staged(AddChild(n, c))
  {
    var r := AddChild(n, c);
    ShapesAppend(n.children, c);
    assert forall k :: 0 <= k < |n.children| ==> r.children[k] == n.children[k];
    assert r.children[|n.children|] == c;
  }

  /** AddChildren called once per node of `cs`, in order. */
  function Attach(n: Node, cs: seq<Node>): (r: Node)
    requires n.Selector? || n.Sequence? || n.Parallel?
    ensures r.Selector? == n.Selector? && r.Sequence? == n.Sequence? && r.Parallel? == n.Parallel?
    ensures r.id == n.id && r.status == n.status && r.children == n.children + cs
    ensures (n.Selector? || n.Sequence?) ==> r.cursor == n.cursor
    ensures n.Parallel? ==> r.threshold == n.threshold
    decreases |cs|
  {
    if |cs| == 0 then n
    else
      assert n.children + cs == n.children + [cs[0]] + cs[1..];
      Attach(AddChild(n, cs[0]), cs[1..])
  }

  lemma {:induction false} AttachStaged(n: Node, cs: seq<Node>)
    requires Staged(n) && AllValid(cs)
    ensures Staged(Attach(n, cs))
    decreases |cs|
  {
    if |cs| > 0 {
      AddChildStaged(n, cs[0]);
      AttachStaged(AddChild(n, cs[0]), cs[1..]);
    }
  }

  /** A selector's flags after assembly: child k is flagged iff it is a LOW_PRIORITY or BOTH precondition. */
  lemma {:induction false} AttachFlags(n: Node, cs: seq<Node>)
    requires n.Selector?
    ensures |Attach(n, cs).reevaluate| == |n.reevaluate| + |cs|
    ensures forall k :: 0 <= k < |n.reevaluate| ==> Attach(n, cs).reevaluate[k] == n.reevaluate[k]
    ensures forall k :: 0 <= k < |cs| ==>
              (Attach(n, cs).reevaluate[|n.reevaluate| + k] <==>
                 cs[k].Precondition? && (cs[k].abort == AbortLowPriority || cs[k].abort == AbortBoth))
    decreases |cs|
  {
    if |cs| > 0 {
      var m := AddChild(n, cs[0]);
      AttachFlags(m, cs[1..]);
      forall k | 0 <= k < |cs|
        ensures Attach(n, cs).reevaluate[|n.reevaluate| + k] <==>
                  cs[k].Precondition? && (cs[k].abort == AbortLowPriority || cs[k].abort == AbortBoth)
      {
        if k > 0 {
          assert |n.reevaluate| + k == |m.reevaluate| + (k - 1);
        }
      }
    }
  }

  /** An assembled composite is well formed once a parallel node has at least `threshold` children. */
  lemma StagedValid(n: Node)
    requires Staged(n) && (n.Parallel? ==> n.threshold <= |n.children|)
    ensures Valid(n) && n.status == Idle
  {
  }
}

=== FILE: blackboard.dfy ===
/**
  The shared context of the behaviour tree (blackboard/blackboard.h): the agent's
  position and destination, and its energy, kept as a 32-bit unsigned integer.
  Guards of precondition nodes are predicates over this record; leaf actions update
  it through the setters and `AdjustEnergy`.
*/
module Blackboard {
  import opened Wrappers

  /** 2^32: `energy_` is an `unsigned int`. */
  const Modulus: int := 0x1_0000_0000

  type U32 = x: int | 0 <= x < 0x1_0000_0000
  type I32 = x: int | -0x8000_0000 <= x < 0x8000_0000

  datatype Position = Home | Mine | School

  /**
    `destination` is None until setDestination is first called: the source leaves
    `destination_` uninitialised, and no comparison with an unset destination holds.
  */
  datatype Board = Board(position: Position, destination: Option<Position>, energy: U32)

  /** The BlackBoard constructor. */
  function Fresh(): Board
  {
    Board(Home, None, 100)
  }

  predicate IsHome(b: Board) { b.position == Home }
  predicate IsMine(b: Board) { b.position == Mine }

  predicate IsSchoolOver(b: Board)
  {
    || (b.position == Mine && b.destination == Some(Home))
    || (b.position == Mine && b.destination == Some(School))
    || b.position == School
  }

  predicate IsEnergyLow(b: Board) { b.energy <= 20 }

  function SetPosition(b: Board, p: Position): (r: Board)
    ensures IsHome(r) <==> p == Home
    ensures IsMine(r) <==> p == Mine
    ensures r.destination == b.destination && r.energy == b.energy
  {
    b.(position := p)
  }

  function SetDestination(b: Board, d: Position): (r: Board)
    ensures r.destination == Some(d)
    ensures r.position == b.position && r.energy == b.energy
  {
    b.(destination := Some(d))
  }

  /**
    adjustEnergy as written: `energy_ += v` converts v to unsigned and wraps modulo
    2^32; the result is capped at 100; the clamp at 0 compares an unsigned value
    with 0 and never applies. So a sum below 0 wraps to a huge value and is capped
    at 100, not floored at 0.
  */
  function AdjustEnergy(b: Board, v: I32): (r: Board)
    ensures 0 <= b.energy + v <= 100 ==> r.energy == b.energy + v
    ensures 100 < b.energy + v < Modulus ==> r.energy == 100
    ensures b.energy + v < 0 ==> r.energy == 100
    ensures r.energy <= 100
    ensures r.position == b.position && r.destination == b.destination
  {
    var sum := (b.energy + v) % Modulus;
    var capped := if sum > 100 then 100 else sum;
    var floored := if capped < 0 then 0 else capped;
    b.(energy := floored)
  }

  /** The energy update the comment on `energy_` ("0~100") intends: a saturating add into [0, 100]. */
  function ClampEnergy(b: Board, v: I32): (r: Board)
    ensures 0 <= b.energy + v <= 100 ==> r.energy == b.energy + v
    ensures b.energy + v < 0 ==> r.energy == 0
    ensures 100 < b.energy + v ==> r.energy == 100
    ensures r.energy <= 100
    ensures r.position == b.position && r.destination == b.destination
  {
    var sum := b.energy + v;
    b.(energy := if sum < 0 then 0 else if sum > 100 then 100 else sum)
  }

  /** The energy after a sequence of adjustEnergy calls. */
  function AdjustAll(b: Board, vs: seq<I32>): Board
    decreases |vs|
  {
    if |vs| == 0 then b else AdjustAll(AdjustEnergy(b, vs[0]), vs[1..])
  }

  /** The fresh blackboard: at home, no destination, full energy. */
  lemma FreshState()
    ensures IsHome(Fresh()) && !IsMine(Fresh()) && !IsSchoolOver(Fresh()) && !IsEnergyLow(Fresh())
    ensures Fresh().energy == 100
  {
  }

  /** isSchoolOver: at school, or at the mine with a destination other than the mine. */
  lemma SchoolOverMeaning(b: Board)
    ensures IsSchoolOver(b) <==>
              b.position == School || (b.position == Mine && b.destination.Some? && b.destination.value != Mine)
  {
  }

  /** Energy stays within [0, 100] under any sequence of adjustEnergy calls, and nothing else changes. */
  lemma {:induction false} AdjustAllBounded(b: Board, vs: seq<I32>)
    requires b.energy <= 100
    ensures AdjustAll(b, vs).energy <= 100
    ensures AdjustAll(b, vs).position == b.position && AdjustAll(b, vs).destination == b.destination
    decreases |vs|
  {
    if |vs| > 0 {
      AdjustAllBounded(AdjustEnergy(b, vs[0]), vs[1..]);
    }
  }

  /** The source's adjustEnergy agrees with the intended saturating add exactly when the sum is not negative. */
  lemma AdjustDiffersBelowZero(b: Board, v: I32)
    requires b.energy <= 100
    ensures AdjustEnergy(b, v) == ClampEnergy(b, v) <==> b.energy + v >= 0
  {
    if b.energy + v < 0 {
      assert AdjustEnergy(b, v).energy == 100 != 0 == ClampEnergy(b, v).energy;
    }
  }

  /** Mining at energy 30 (adjustEnergy(-40)) leaves the energy full instead of empty. */
  lemma MiningWrapsToFull()
    ensures AdjustEnergy(Board(Mine, None, 30), -40).energy == 100
    ensures ClampEnergy(Board(Mine, None, 30), -40).energy == 0
  {
  }
}

=== FILE: composites.dfy ===
/**
  What each node kind's Update and OnTerminate promise (behavior_tree/behavior_node.h:
  PreconditionNode, SelectorNode, SequenceNode, ParallelNode), stated about the
  engine's functions.
*/
module Composites {
  import opened Wrappers
  import opened Nodes
  import opened Engine
  import opened Lifecycle

  /** A composite with no children succeeds at once. */
  lemma EmptyCompositeSucceeds<C>(env: Env<C>, n: Node, slot: Slot, ctx: C)
    requires Valid(n) && (n.Selector? || n.Sequence? || n.Parallel?) && |n.children| == 0
    ensures Run(env, n, slot, ctx).status == Success
  {
    var b := Begin(env, n, ctx);
    ShapeFacts(n);
    ShapeFacts(b.0);
  }

  /** A leaf action runs its OnInitialize hook unless RUNNING, then its Update hook, whose status it returns. */
  lemma LeafRun<C>(env: Env<C>, n: Node, slot: Slot, ctx: C)
    requires n.Action?
    ensures var c := if n.status == Running then ctx else env.start(n.id, ctx);
            && Run(env, n, slot, ctx).status == env.step(n.id, c).0
            && Run(env, n, slot, ctx).ctx == env.step(n.id, c).1
            && Run(env, n, slot, ctx).node == Action(n.id, env.step(n.id, c).0)
  {
  }

  // ---------------------------------------------------------------- precondition

  /** Update returns the child's Run result iff Reevaluation allows it, and FAILURE without running the child otherwise. */
  lemma PreconditionGate<C>(env: Env<C>, n: Node, slot: Slot, ctx: C)
    requires Valid(n) && n.Precondition?
    ensures var u := Update(env, n, slot, ctx);
            var c := Run(env, n.child, Detached, ctx);
            && (Reevaluation(env, n, slot, ctx) == Deny ==> u.status == Failure && u.node == n && u.log == [])
            && (Reevaluation(env, n, slot, ctx) != Deny ==>
                  u.status == c.status && u.node.child == c.node && u.ctx == c.ctx)
  {
  }

  /**
    When the precondition preempts its selector's cursor, the events of resetting the
    child at the cursor come first, strictly before any event of its own child's run.
  */
  lemma PreemptCancelsFirst<C>(env: Env<C>, n: Node, slot: Slot, ctx: C)
    requires Valid(n) && n.Precondition? && Reevaluation(env, n, slot, ctx) == Preempt
    ensures slot.Sibling?
    ensures Update(env, n, slot, ctx).log == slot.cancel + Run(env, n.child, Detached, ctx).log
  {
  }

  /** `log` begins with `head`. */
  ghost predicate StartsWith(log: seq<Event>, head: seq<Event>)
  {
    |head| <= |log| && log[..|head|] == head
  }

  /** What a preempting precondition `c` logs first: its own OnInitialize, then `cancel`, then its child's run. */
  ghost function PreemptingHead<C>(env: Env<C>, c: Node, cancel: seq<Event>, ctx: C): seq<Event>
    requires Valid(c) && c.Precondition?
  {
    ValidParts(c);
    Opening(c) + cancel + Run(env, c.child, Detached, ctx).log
  }

  /** PreemptCancelsFirst seen from the precondition's whole Run: the cancellation precedes every event of the child. */
  lemma PreemptingRunCancelsFirst<C>(env: Env<C>, n: Node, slot: Slot, ctx: C)
    requires Valid(n) && n.Precondition? && Reevaluation(env, n, slot, ctx) == Preempt
    ensures slot.Sibling?
    ensures StartsWith(Run(env, n, slot, ctx).log, PreemptingHead(env, n, slot.cancel, ctx))
  {
    PreemptCancelsFirst(env, n, slot, ctx);
    var u := Update(env, n, slot, ctx);
    assert Begin(env, n, ctx) == (n, ctx);
    assert Run(env, n, slot, ctx) == Conclude(n, u);
  }

  /** OnTerminate of a precondition resets the child on IDLE and FAILURE, and leaves it alone on SUCCESS. */
  lemma PreconditionTerminate(n: Node, s: Status)
    requires Valid(n) && n.Precondition? && s != Running && n.status == s
    ensures var r := OnTerminate(n, s);
            && r.0.Precondition?
            && (s == Success ==> r == (n, [Terminated(n.id, s)]))
            && (s != Success ==> r.0.child == Reset(n.child).0 && r.1 == [Terminated(n.id, s)] + Reset(n.child).1)
  {
  }

  /**
    Abort mode NONE does not disable the guard: with the child not RUNNING a false
    guard denies; only a RUNNING child is let through whatever the guard says.
  */
  lemma NoneModeStillGuards<C>(env: Env<C>, n: Node, slot: Slot, ctx: C)
    requires n.Precondition? && n.abort == AbortNone
    ensures n.child.status != Running && !Holds(env, n.guard, ctx) ==> Reevaluation(env, n, slot, ctx) == Deny
    ensures n.child.status == Running ==> Reevaluation(env, n, slot, ctx) == Allow
  {
  }

  /**
    A LOW_PRIORITY or BOTH precondition above its selector's cursor with a false guard
    is denied at once, even under BOTH and with a RUNNING child.
  */
  lemma AboveCursorFalseGuardDenies<C>(env: Env<C>, n: Node, slot: Slot, ctx: C)
    requires n.Precondition? && AboveCursor(n, slot) && !Holds(env, n.guard, ctx)
    ensures Reevaluation(env, n, slot, ctx) == Deny
  {
  }

  // ---------------------------------------------------------------- selector

  /**
    A selector entered at cursor 0 (a fresh activation) is a priority fallback: it
    returns the first non-FAILURE result among its children, in order, with the cursor
    left on that child; when all fail it returns FAILURE with the cursor back at 0.
  */
  lemma SelectorFallback<C>(env: Env<C>, n: Node, slot: Slot, ctx: C)
    requires Valid(n) && n.Selector? && |n.children| > 0 && n.cursor == 0
    ensures var u := Update(env, n, slot, ctx);
            && u.node.Selector? && |u.node.children| == |n.children| && u.node.cursor < |n.children|
            && (u.status != Failure ==>
                  && u.node.children[u.node.cursor].status == u.status
                  && forall k :: 0 <= k < u.node.cursor ==> u.node.children[k].status == Failure)
            && (u.status == Failure ==>
                  && u.node.cursor == 0
                  && forall k :: 0 <= k < |n.children| ==> u.node.children[k].status == Failure)
  {
    var p := Reevaluate(env, n.children, n.reevaluate, 0, 0, ctx, ShapeOf(n));
    assert p == Pass(n.children, 0, ctx, [], false, None);
  }

  /** Child k is a precondition whose guard is false on `ctx` and whose child is not RUNNING: it will be denied. */
  predicate Closed<C>(env: Env<C>, kids: seq<Node>, k: nat, ctx: C)
    requires k < |kids|
  {
    kids[k].Precondition? && !Holds(env, kids[k].guard, ctx) && kids[k].child.status != Running
  }

  /** The status the resume pass from `i` returns. */
  ghost function Resumed<C>(env: Env<C>, kids: seq<Node>, i: nat, ctx: C, shape: Shape): Status
    requires i < |kids| && shape.Branch? && shape.parts == ShapesOf(kids) && AllValid(kids)
  {
    Resume(env, kids, i, ctx, shape).status
  }

  /** The status the last child returns when it is run as the sibling at the cursor. */
  ghost function LastStatus<C>(env: Env<C>, kids: seq<Node>, ctx: C): Status
    requires |kids| > 0 && AllValid(kids)
  {
    Run(env, kids[|kids| - 1], Sibling(|kids| - 1, |kids| - 1, []), ctx).status
  }

  /** Child `last`, run as the sibling at the cursor, returns `want`. */
  ghost predicate LastGives<C>(env: Env<C>, kids: seq<Node>, last: nat, ctx: C, want: Status)
    requires last < |kids| && AllValid(kids)
  {
    Run(env, kids[last], Sibling(last, last, []), ctx).status == want
  }

  /**
    The resume pass from index i, when every child from i up to the last one is a
    closed precondition: each of them is denied without touching the context, and
    the result is the last child's.
  */
  lemma {:induction false} ResumeToLast<C>(env: Env<C>, kids: seq<Node>, i: nat, ctx: C, shape: Shape,
                                            last: nat, want: Status)
    requires i <= last && last == |kids| - 1 && AllValid(kids)
    requires shape.Branch? && shape.parts == ShapesOf(kids)
    requires LastGives(env, kids, last, ctx, want)
    requires forall k :: i <= k < last ==> Closed(env, kids, k, ctx)
    ensures Resumed(env, kids, i, ctx, shape) == want
    decreases last - i, 1
  {
    if i < last {
      ResumePastClosed(env, kids, i, ctx, shape, last, want);
    } else {
      ResumeAtLast(env, kids, ctx, shape, i, want);
    }
  }

  /** The inductive step of ResumeToLast: deny child i, then resume from the next child. */
  lemma {:induction false} ResumePastClosed<C>(env: Env<C>, kids: seq<Node>, i: nat, ctx: C, shape: Shape,
                                               last: nat, want: Status)
    requires i < last && last == |kids| - 1 && AllValid(kids)
    requires shape.Branch? && shape.parts == ShapesOf(kids)
    requires LastGives(env, kids, last, ctx, want)
    requires forall k :: i <= k < last ==> Closed(env, kids, k, ctx)
    ensures Resumed(env, kids, i, ctx, shape) == want
    decreases last - i, 0
  {
    var kids' := ClosedStep(env, kids, i, ctx, shape, last, want);
    ResumeToLast(env, kids', i + 1, ctx, shape, last, want);
  }

  /** At the last child, the resume pass returns that child's result whatever it is. */
  lemma ResumeAtLast<C>(env: Env<C>, kids: seq<Node>, ctx: C, shape: Shape, last: nat, want: Status)
    requires last == |kids| - 1 && AllValid(kids)
    requires shape.Branch? && shape.parts == ShapesOf(kids)
    requires LastGives(env, kids, last, ctx, want)
    ensures Resumed(env, kids, last, ctx, shape) == want
  {
  }

  /** One closed precondition in the resume pass: it fails, and the pass carries on from the next child with the same context. */
  lemma ClosedStep<C>(env: Env<C>, kids: seq<Node>, i: nat, ctx: C, shape: Shape, last: nat, want: Status)
    returns (kids': seq<Node>)
    requires i < last && last == |kids| - 1 && AllValid(kids)
    requires shape.Branch? && shape.parts == ShapesOf(kids)
    requires LastGives(env, kids, last, ctx, want)
    requires forall k :: i <= k < last ==> Closed(env, kids, k, ctx)
    ensures kids' == kids[i := RunKid(env, kids, i, Sibling(i, i, []), ctx).node]
    ensures |kids'| == |kids| && ShapesOf(kids') == ShapesOf(kids) && AllValid(kids')
    ensures LastGives(env, kids', last, ctx, want)
    ensures forall k :: i + 1 <= k < last ==> Closed(env, kids', k, ctx)
    ensures Resumed(env, kids', i + 1, ctx, shape) == want ==> Resumed(env, kids, i, ctx, shape) == want
  {
    ClosedDenied(env, kids, i, ctx);
    var r := Run(env, kids[i], Sibling(i, i, []), ctx);
    ResumePastFailure(env, kids, i, ctx, shape);
    kids' := kids[i := r.node];
    assert kids'[last] == kids[last];
    forall k | i + 1 <= k < last ensures Closed(env, kids', k, ctx) {
      assert kids'[k] == kids[k] && Closed(env, kids, k, ctx);
    }
  }

  lemma ClosedDenied<C>(env: Env<C>, kids: seq<Node>, i: nat, ctx: C)
    requires i < |kids| && AllValid(kids) && Closed(env, kids, i, ctx)
    ensures Run(env, kids[i], Sibling(i, i, []), ctx).status == Failure
    ensures Run(env, kids[i], Sibling(i, i, []), ctx).ctx == ctx
  {
    assert Valid(kids[i]);
    PreconditionDenied(env, kids[i], Sibling(i, i, []), ctx);
  }

  /** A FAILURE before the last child moves the resume pass on to the next child. */
  lemma ResumePastFailure<C>(env: Env<C>, kids: seq<Node>, i: nat, ctx: C, shape: Shape)
    requires i + 1 < |kids|
    requires shape.Branch? && shape.parts == ShapesOf(kids) && AllValid(kids)
    requires Run(env, kids[i], Sibling(i, i, []), ctx).status == Failure
    ensures var r := Run(env, kids[i], Sibling(i, i, []), ctx);
            && ShapesOf(kids[i := r.node]) == ShapesOf(kids) && AllValid(kids[i := r.node])
            && Resume(env, kids, i, ctx, shape).status == Resume(env, kids[i := r.node], i + 1, r.ctx, shape).status
  {
    var r := Run(env, kids[i], Sibling(i, i, []), ctx);
    ShapesUpdate(kids, i, r.node);
  }

  // ---------------------------------------------------------------- the passes, child by child

  /** Run child i of `kids` in `slot`: the result, with what a pass needs to go on with it in place. */
  ghost function RunKid<C>(env: Env<C>, kids: seq<Node>, i: nat, slot: Slot, ctx: C): (r: Tick<C>)
    requires i < |kids| && AllValid(kids)
    ensures r.node.status == r.status
    ensures ShapesOf(kids[i := r.node]) == ShapesOf(kids) && AllValid(kids[i := r.node])
  {
    var r := Run(env, kids[i], slot, ctx);
    ShapesUpdate(kids, i, r.node);
    r
  }

  /**
    One step of SelectorNode::Update's second loop. Child `cursor` runs, as the sibling
    at the cursor, on the context the pass was given. A result other than FAILURE, or
    the last child's FAILURE, ends the pass with that child's context and events.
    Otherwise the pass goes on from the next child, on the context this child left,
    and its events follow this child's.
  */
  lemma ResumeThreads<C>(env: Env<C>, kids: seq<Node>, cursor: nat, ctx: C, shape: Shape)
    requires cursor < |kids|
    requires shape.Branch? && shape.parts == ShapesOf(kids) && AllValid(kids)
    ensures var r := RunKid(env, kids, cursor, Sibling(cursor, cursor, []), ctx);
            var s := Resume(env, kids, cursor, ctx, shape);
            && s.kids[cursor] == r.node
            && (r.status != Failure || cursor + 1 == |kids| ==>
                  s.kids == kids[cursor := r.node] && s.ctx == r.ctx && s.log == r.log)
            && (r.status == Failure && cursor + 1 < |kids| ==>
                  var rest := Resume(env, kids[cursor := r.node], cursor + 1, r.ctx, shape);
                  && s.kids == rest.kids && s.cursor == rest.cursor && s.status == rest.status
                  && s.ctx == rest.ctx && s.log == r.log + rest.log)
  {
    var r := RunKid(env, kids, cursor, Sibling(cursor, cursor, []), ctx);
    if r.status == Failure && cursor + 1 < |kids| {
      var rest := Resume(env, kids[cursor := r.node], cursor + 1, r.ctx, shape);
      assert rest.kids[cursor] == r.node;
    }
  }

  /**
    One step of SequenceNode::Update. Child `cursor` runs on the context the pass was
    given. A result other than SUCCESS, or the last child's SUCCESS, ends the pass with
    that child's context and events. Otherwise the pass goes on from the next child,
    on the context this child left, and its events follow this child's.
  */
  lemma ChainThreads<C>(env: Env<C>, kids: seq<Node>, cursor: nat, ctx: C, shape: Shape)
    requires cursor < |kids|
    requires shape.Branch? && shape.parts == ShapesOf(kids) && AllValid(kids)
    ensures var r := RunKid(env, kids, cursor, Detached, ctx);
            var s := Chain(env, kids, cursor, ctx, shape);
            && s.kids[cursor] == r.node
            && (r.status != Success || cursor + 1 == |kids| ==>
                  s.kids == kids[cursor := r.node] && s.ctx == r.ctx && s.log == r.log)
            && (r.status == Success && cursor + 1 < |kids| ==>
                  var rest := Chain(env, kids[cursor := r.node], cursor + 1, r.ctx, shape);
                  && s.kids == rest.kids && s.cursor == rest.cursor && s.status == rest.status
                  && s.ctx == rest.ctx && s.log == r.log + rest.log)
  {
    var r := RunKid(env, kids, cursor, Detached, ctx);
    if r.status == Success && cursor + 1 < |kids| {
      var rest := Chain(env, kids[cursor := r.node], cursor + 1, r.ctx, shape);
      assert rest.kids[cursor] == r.node;
    }
  }

  /** Child i of a parallel node of `size` children concluded with `st`, and the counters became `t`: a threshold is reached. */
  predicate Crosses(size: nat, threshold: nat, st: Status, t: (seq<bool>, nat, nat))
  {
    (st == Success && t.1 >= threshold) || (st == Failure && t.2 >= size - threshold)
  }

  /**
    One step of ParallelNode::Update's loop. A child already done this activation is
    skipped with nothing run. Otherwise it runs on the context the loop was given and
    is counted, and SettleThreads says what follows.
  */
  lemma SpreadThreads<C>(env: Env<C>, kids: seq<Node>, threshold: nat, done: seq<bool>, successes: nat,
                         failures: nat, i: nat, ctx: C, shape: Shape)
    requires 1 <= threshold <= |kids| && i < |kids|
    requires FanInv(|kids|, threshold, done, successes, failures)
    requires shape.Branch? && shape.parts == ShapesOf(kids) && AllValid(kids)
    ensures var f := Spread(env, kids, threshold, done, successes, failures, i, ctx, shape);
            && (done[i] ==> f == Spread(env, kids, threshold, done, successes, failures, i + 1, ctx, shape))
            && (!done[i] ==>
                  var c := RunKid(env, kids, i, Detached, ctx);
                  SettleThreads(env, kids, threshold, done, successes, failures, i, c, f, shape))
  {
    if !done[i] {
      var c := RunKid(env, kids, i, Detached, ctx);
      assert ShapeOf(kids[i]) == shape.parts[i];
      IdsOfPart(shape.parts, i);
      var f := Settle(env, kids, threshold, done, successes, failures, i, c, shape);
      assert Spread(env, kids, threshold, done, successes, failures, i, ctx, shape) == f;
      SettledThreads(env, kids, threshold, done, successes, failures, i, c, shape);
    }
  }

  /**
    Child i of a parallel node has run as `c` and is counted. If that reaches a
    threshold the loop's outcome `f` ends with this child's context and events, else
    the loop goes on from the next child, on the context this child left, and its
    events follow this child's.
  */
  ghost predicate SettleThreads<C>(env: Env<C>, kids: seq<Node>, threshold: nat, done: seq<bool>, successes: nat,
                                   failures: nat, i: nat, c: Tick<C>, f: Fan<C>, shape: Shape)
    requires 1 <= threshold <= |kids| && i < |kids|
    requires FanInv(|kids|, threshold, done, successes, failures) && !done[i]
    requires shape.Branch? && shape.parts == ShapesOf(kids) && AllValid(kids)
    requires ShapesOf(kids[i := c.node]) == ShapesOf(kids) && AllValid(kids[i := c.node])
  {
    var t := Tally(done, successes, failures, i, c.status);
    && |f.kids| == |f.done| == |kids| && f.kids[i] == c.node && f.done[i] == t.0[i]
    && (Crosses(|kids|, threshold, c.status, t) ==>
          && f.kids == kids[i := c.node] && f.at == i && f.status == c.status
          && f.ctx == c.ctx && f.log == c.log)
    && (!Crosses(|kids|, threshold, c.status, t) ==>
          var rest := Spread(env, kids[i := c.node], threshold, t.0, t.1, t.2, i + 1, c.ctx, shape);
          && f.kids == rest.kids && f.done == rest.done && f.at == rest.at && f.status == rest.status
          && f.ctx == rest.ctx && f.log == c.log + rest.log)
  }

  /** Settle, the counting half of one parallel step, meets SettleThreads. */
  lemma SettledThreads<C>(env: Env<C>, kids: seq<Node>, threshold: nat, done: seq<bool>, successes: nat,
                          failures: nat, i: nat, c: Tick<C>, shape: Shape)
    requires 1 <= threshold <= |kids| && i < |kids|
    requires FanInv(|kids|, threshold, done, successes, failures) && !done[i]
    requires shape.Branch? && shape.parts == ShapesOf(kids) && AllValid(kids)
    requires Valid(c.node) && ShapeOf(c.node) == ShapeOf(kids[i]) && c.node.status == c.status
    requires Within(c.log, IdsOfAll(shape.parts))
    requires ShapesOf(kids[i := c.node]) == ShapesOf(kids) && AllValid(kids[i := c.node])
    ensures SettleThreads(env, kids, threshold, done, successes, failures, i, c,
                          Settle(env, kids, threshold, done, successes, failures, i, c, shape), shape)
  {
    var t := Tally(done, successes, failures, i, c.status);
    if !Crosses(|kids|, threshold, c.status, t) {
      var rest := Spread(env, kids[i := c.node], threshold, t.0, t.1, t.2, i + 1, c.ctx, shape);
      assert rest.kids[i] == c.node && rest.done[i] == t.0[i];
    }
  }

  /**
    A fresh activation of a selector whose children before the last are all closed
    preconditions returns whatever its last child returns.
  */
  lemma LastChildDecides<C>(env: Env<C>, n: Node, slot: Slot, ctx: C)
    requires Valid(n) && n.Selector? && n.status != Running && |n.children| > 0
    requires forall k :: 0 <= k < |n.children| - 1 ==> Closed(env, n.children, k, ctx)
    ensures (ValidParts(n); Run(env, n, slot, ctx).status == LastStatus(env, n.children, ctx))
  {
    var b := Begin(env, n, ctx);
    assert b == (Selector(n.id, n.status, n.children, 0, n.reevaluate), ctx);
    ShapeFacts(n);
    ValidParts(n);
    var last := |n.children| - 1;
    var want := LastStatus(env, n.children, ctx);
    ResumeToLast(env, n.children, 0, ctx, ShapeOf(b.0), last, want);
    SelectFromStart(env, b.0, slot, ctx, want);
    RunReturnsUpdate(env, n, slot, ctx);
  }

  /** A selector at cursor 0 skips the (empty) re-evaluation pass: its Update returns what the resume pass from 0 does. */
  lemma SelectFromStart<C>(env: Env<C>, m: Node, slot: Slot, ctx: C, want: Status)
    requires Valid(m) && m.Selector? && |m.children| > 0 && m.cursor == 0
    requires Resumed(env, m.children, 0, ctx, ShapeOf(m)) == want
    ensures Update(env, m, slot, ctx).status == want
  {
    var p := Reevaluate(env, m.children, m.reevaluate, 0, 0, ctx, ShapeOf(m));
    assert p == Pass(m.children, 0, ctx, [], false, None);
    assert Update(env, m, slot, ctx) == Select(env, m, slot, ctx);
  }

  /**
    Whatever the cursor, the selector's result is the status of the child its cursor
    is left on, unless it fails, in which case the cursor is back at 0 and the last
    child failed.
  */
  lemma SelectorOutcome<C>(env: Env<C>, n: Node, slot: Slot, ctx: C)
    requires Valid(n) && n.Selector? && |n.children| > 0
    ensures var u := Update(env, n, slot, ctx);
            && u.node.Selector? && |u.node.children| == |n.children| && u.node.cursor < |n.children|
            && (u.status != Failure ==> u.node.children[u.node.cursor].status == u.status)
            && (u.status == Failure ==>
                  u.node.cursor == 0 && u.node.children[|n.children| - 1].status == Failure)
  {
    var p := Reevaluate(env, n.children, n.reevaluate, n.cursor, 0, ctx, ShapeOf(n));
    assert Update(env, n, slot, ctx) == Select(env, n, slot, ctx);
    if p.verdict.Some? {
      assert PreemptedFrom(env, n.children, n.reevaluate, n.cursor, 0, ctx, p, ShapeOf(n));
      assert PreemptedState(env, n.children, n.reevaluate, n.cursor, 0, ctx, p, ShapeOf(n));
      assert PreemptedAt(env, n.children, n.cursor, ctx, p.cursor, p, ShapeOf(n));
    } else {
      var q := Resume(env, p.kids, p.cursor, p.ctx, ShapeOf(n));
      if q.status == Failure {
        assert q.kids[|n.children| - 1].status == Failure;
      }
    }
  }

  /**
    The cursor moves left only by preemption: when the selector ends on a child
    before its old cursor with a non-FAILURE result, the child at the old cursor has
    been Reset (and so is no longer RUNNING).
  */
  lemma SelectorPreemptResets<C>(env: Env<C>, n: Node, slot: Slot, ctx: C)
    requires Valid(n) && n.Selector? && |n.children| > 0
    ensures (ValidChild(n, n.cursor);
             var u := Update(env, n, slot, ctx);
             u.node.Selector? && u.node.cursor < n.cursor && u.status != Failure ==>
               && u.node.children[n.cursor] == Reset(n.children[n.cursor]).0
               && u.node.children[n.cursor].status != Running)
  {
    var p := Reevaluate(env, n.children, n.reevaluate, n.cursor, 0, ctx, ShapeOf(n));
    if !p.preempted {
      assert Kept(env, n.children, n.reevaluate, n.cursor, 0, ctx, p, ShapeOf(n));
    } else {
      assert PreemptedFrom(env, n.children, n.reevaluate, n.cursor, 0, ctx, p, ShapeOf(n));
      assert PreemptedState(env, n.children, n.reevaluate, n.cursor, 0, ctx, p, ShapeOf(n));
    }
    if p.verdict.None? {
      var q := Resume(env, p.kids, p.cursor, p.ctx, ShapeOf(n));
      if q.cursor < n.cursor && q.status != Failure {
        assert q.kids[n.cursor] == p.kids[n.cursor];
      }
    }
  }

  /**
    The re-evaluation pass preempts the running child iff some flagged child before
    the cursor has a guard that holds; it preempts at the first such child, all
    flagged children before it being denied. Without preemption the cursor, the child
    at the cursor and the context are as they were.
  */
  lemma SelectorPreempts<C>(env: Env<C>, n: Node, ctx: C)
    requires Valid(n) && n.Selector? && |n.children| > 0
    ensures var p := Reevaluate(env, n.children, n.reevaluate, n.cursor, 0, ctx, ShapeOf(n));
            && (p.preempted <==>
                  exists k :: 0 <= k < n.cursor && n.reevaluate[k] && Opens(env, n.children[k], ctx))
            && (p.preempted ==>
                  var j := if p.verdict.Some? then p.cursor else p.cursor - 1;
                  && 0 <= j < n.cursor && n.reevaluate[j] && Opens(env, n.children[j], ctx)
                  && forall k :: 0 <= k < j && n.reevaluate[k] ==>
                       !Opens(env, n.children[k], ctx) && p.kids[k].status == Failure)
            && (!p.preempted ==>
                  && p.cursor == n.cursor && p.ctx == ctx && p.kids[n.cursor] == n.children[n.cursor]
                  && forall k :: 0 <= k < n.cursor && n.reevaluate[k] ==> p.kids[k].status == Failure)
  {
    var p := Reevaluate(env, n.children, n.reevaluate, n.cursor, 0, ctx, ShapeOf(n));
    var end := if !p.preempted then n.cursor else if p.verdict.Some? then p.cursor else p.cursor - 1;
    if p.preempted {
      assert PreemptedFrom(env, n.children, n.reevaluate, n.cursor, 0, ctx, p, ShapeOf(n));
      assert PreemptedState(env, n.children, n.reevaluate, n.cursor, 0, ctx, p, ShapeOf(n));
    } else {
      assert Kept(env, n.children, n.reevaluate, n.cursor, 0, ctx, p, ShapeOf(n));
    }
    assert Denied(env, n.children, n.reevaluate, n.cursor, 0, end, ctx, p, ShapeOf(n));
    if p.preempted {
      assert 0 <= end < n.cursor && n.reevaluate[end] && Opens(env, n.children[end], ctx);
    }
  }

  /**
    When the selector's first loop preempts at child j, the events it logs hold, in
    this order and with nothing between: child j's OnInitialize, the reset of the child
    at the cursor, and the run of child j's own child. So the child at the cursor is
    reset before anything below child j runs.
  */
  lemma SelectorCancelsFirst<C>(env: Env<C>, n: Node, ctx: C)
    requires Valid(n) && n.Selector? && |n.children| > 0
    ensures var p := Reevaluate(env, n.children, n.reevaluate, n.cursor, 0, ctx, ShapeOf(n));
            p.preempted ==>
              var j := if p.verdict.Some? then p.cursor else p.cursor - 1;
              && 0 <= j < n.cursor && n.children[j].Precondition?
              && p.kids[n.cursor] == Reset(n.children[n.cursor]).0
              && exists k :: 0 <= k <= |p.log| &&
                   StartsWith(p.log[k..], PreemptingHead(env, n.children[j], Reset(n.children[n.cursor]).1, ctx))
  {
    var p := Reevaluate(env, n.children, n.reevaluate, n.cursor, 0, ctx, ShapeOf(n));
    if p.preempted {
      var j := if p.verdict.Some? then p.cursor else p.cursor - 1;
      assert PreemptedFrom(env, n.children, n.reevaluate, n.cursor, 0, ctx, p, ShapeOf(n));
      assert PreemptedState(env, n.children, n.reevaluate, n.cursor, 0, ctx, p, ShapeOf(n));
      assert PreemptedAt(env, n.children, n.cursor, ctx, j, p, ShapeOf(n));
      var c := n.children[j];
      var slot := Sibling(j, n.cursor, Reset(n.children[n.cursor]).1);
      assert Reevaluates(ShapesOf(n.children)[j]);
      assert Reevaluation(env, c, slot, ctx) == Preempt;
      PreemptingRunCancelsFirst(env, c, slot, ctx);
      var r := SiblingRun(env, n.children, n.cursor, j, ctx, ShapeOf(n));
      var k := |p.log| - |r.log|;
      assert p.log[k..] == r.log;
    }
  }

  // ---------------------------------------------------------------- sequence

  /**
    A sequence returns the first non-SUCCESS result from its cursor on, as it is, with
    the cursor left on that child; when all succeed it returns SUCCESS with the cursor
    back at 0.
  */
  lemma SequenceOutcome<C>(env: Env<C>, n: Node, slot: Slot, ctx: C)
    requires Valid(n) && n.Sequence? && |n.children| > 0
    ensures var u := Update(env, n, slot, ctx);
            && u.node.Sequence? && |u.node.children| == |n.children| && u.node.cursor < |n.children|
            && (u.status != Success ==>
                  && n.cursor <= u.node.cursor && u.node.children[u.node.cursor].status == u.status
                  && forall k :: n.cursor <= k < u.node.cursor ==> u.node.children[k].status == Success)
            && (u.status == Success ==>
                  && u.node.cursor == 0
                  && forall k :: n.cursor <= k < |n.children| ==> u.node.children[k].status == Success)
  {
  }

  /** The state of a selector or sequence with its cursor rewound to the first child. */
  function Rewound(n: Node): (r: Node)
    requires n.Selector? || n.Sequence?
    ensures r.Selector? == n.Selector? && r.Sequence? == n.Sequence? && r.children == n.children
    ensures r.cursor == 0 && r.status == n.status && r.id == n.id
  {
    match n
    case Selector(id, st, kids, _, flags) => Selector(id, st, kids, 0, flags)
    case Sequence(id, st, kids, _) => Sequence(id, st, kids, 0)
  }

  /** A fresh activation (the node not RUNNING) of a selector or sequence restarts at child 0, whatever the old cursor. */
  lemma FreshRestart<C>(env: Env<C>, n: Node, slot: Slot, ctx: C)
    requires Valid(n) && (n.Selector? || n.Sequence?) && n.status != Running
    ensures Valid(Rewound(n))
    ensures Run(env, n, slot, ctx) == Run(env, Rewound(n), slot, ctx)
  {
    ShapeFacts(n);
    assert ShapeOf(Rewound(n)) == ShapeOf(n);
    assert Begin(env, n, ctx) == Begin(env, Rewound(n), ctx);
  }

  // ---------------------------------------------------------------- parallel

  lemma {:induction false} CountAllSet(bs: seq<bool>)
    requires forall k :: 0 <= k < |bs| ==> bs[k]
    ensures Count(bs) == |bs|
    decreases |bs|
  {
    if |bs| > 0 {
      CountAllSet(bs[1..]);
    }
  }

  /**
    A parallel node's Update: SUCCESS exactly when successes reach the threshold,
    FAILURE exactly when, before that, failures reach size - threshold (at least one),
    otherwise RUNNING with some child still not done. It returns at the child whose
    conclusion crossed the threshold and leaves every later child alone. Counters never
    decrease, a child already done this activation is not run again, and a child newly
    marked done has concluded.
  */
  lemma ParallelOutcome<C>(env: Env<C>, n: Node, slot: Slot, ctx: C)
    requires Valid(n) && Ready(n) && n.Parallel? && |n.children| > 0
    ensures var u := Update(env, n, slot, ctx);
            && u.node.Parallel? && |u.node.children| == |n.children| == |u.node.done| == |n.done|
            && (u.status == Success || u.status == Failure || u.status == Running)
            && (u.status == Success <==> u.node.successes >= n.threshold)
            && (u.status == Failure <==>
                  && u.node.successes < n.threshold && u.node.failures > 0
                  && u.node.failures >= |n.children| - n.threshold)
            && (u.status == Success ==> u.node.successes == n.threshold)
            && (u.status != Running ==>
                  exists j :: && 0 <= j < |n.children| && !n.done[j] && u.node.done[j]
                              && u.node.children[j].status == u.status
                              && forall k :: j < k < |n.children| ==>
                                   u.node.children[k] == n.children[k] && u.node.done[k] == n.done[k])
            && (u.status == Running ==> exists k :: 0 <= k < |n.children| && !u.node.done[k])
            && u.node.successes >= n.successes && u.node.failures >= n.failures
            && (forall k :: 0 <= k < |n.children| && n.done[k] ==>
                  u.node.done[k] && u.node.children[k] == n.children[k])
            && (forall k :: 0 <= k < |n.children| && u.node.done[k] && !n.done[k] ==>
                  u.node.children[k].status == Success || u.node.children[k].status == Failure)
  {
    var q := Spread(env, n.children, n.threshold, n.done, n.successes, n.failures, 0, ctx, ShapeOf(n));
    var u := Update(env, n, slot, ctx);
    assert u == Gather(env, n, slot, ctx);
    assert u.node.children == q.kids && u.node.done == q.done && u.status == q.status;
    if u.status == Running && forall k :: 0 <= k < |n.children| ==> u.node.done[k] {
      CountAllSet(u.node.done);
      assert false;
    }
    if u.status != Running {
      var j := q.at;
      assert j < |n.children| && !n.done[j] && u.node.done[j];
    }
  }

  // ---------------------------------------------------------------- reset

  /** Resetting is idempotent: a reset node is not RUNNING, so a second Reset does nothing. */
  lemma ResetIdempotent(n: Node)
    requires Valid(n)
    ensures Reset(Reset(n).0) == (Reset(n).0, [])
  {
  }

  /** ResetAll resets each child from index i on, exactly as a Reset of that child alone would. */
  lemma {:induction false} ResetAllEach(kids: seq<Node>, i: nat, shape: Shape)
    requires i <= |kids|
    requires shape.Branch? && shape.parts == ShapesOf(kids) && AllValid(kids)
    ensures forall k :: i <= k < |kids| ==> ResetAll(kids, i, shape).0[k] == Reset(kids[k]).0
    decreases |kids| - i
  {
    if i < |kids| {
      var c := Reset(kids[i]);
      ShapesUpdate(kids, i, c.0);
      ResetAllEach(kids[i := c.0], i + 1, shape);
      assert ResetAll(kids, i, shape).0 == ResetAll(kids[i := c.0], i + 1, shape).0;
    }
  }

  /**
    Reset of a RUNNING node: it becomes IDLE; a selector or sequence resets only the
    child at its cursor, a precondition its child, a parallel node every child.
  */
  lemma ResetPropagates(n: Node)
    requires Valid(n) && n.status == Running
    ensures var r := Reset(n).0;
            && r.status == Idle
            && ((n.Selector? || n.Sequence?) ==>
                  && (r.Selector? || r.Sequence?) && r.cursor == n.cursor
                  && (ValidChild(n, n.cursor);
                      r.children == n.children[n.cursor := Reset(n.children[n.cursor]).0]))
            && (n.Precondition? ==> r.Precondition? && r.child == Reset(n.child).0)
            && (n.Parallel? ==>
                  && r.Parallel? && |r.children| == |n.children|
                  && forall k :: 0 <= k < |n.children| ==>
                       (ValidChild(n, k); r.children[k] == Reset(n.children[k]).0))
  {
    if n.Parallel? {
      ResetAllEach(n.children, 0, ShapeOf(n));
    }
  }

  /**
    OnTerminate of a composite: on SUCCESS or FAILURE a selector or sequence leaves its
    children alone, and on IDLE resets the child at its cursor; a parallel node resets
    every child whatever the status, so no child of a concluded parallel node is left
    RUNNING.
  */
  lemma CompositeTerminate(n: Node, s: Status)
    requires Valid(n) && (n.Selector? || n.Sequence? || n.Parallel?) && s != Running && n.status == s
    requires Terminable(n, s)
    ensures var r := OnTerminate(n, s);
            && ((n.Selector? || n.Sequence?) && s != Idle ==> r == (n, [Terminated(n.id, s)]))
            && ((n.Selector? || n.Sequence?) && s == Idle ==>
                  && r.0.Selector? == n.Selector? && r.0.Sequence? == n.Sequence? && r.0.cursor == n.cursor
                  && (ValidChild(n, n.cursor);
                      r.0.children == n.children[n.cursor := Reset(n.children[n.cursor]).0]))
            && (n.Parallel? ==>
                  && r.0.Parallel? && |r.0.children| == |n.children|
                  && forall k :: 0 <= k < |n.children| ==>
                       (ValidChild(n, k); r.0.children[k] == Reset(n.children[k]).0 && r.0.children[k].status != Running))
  {
    if n.Parallel? {
      ResetAllEach(n.children, 0, ShapeOf(n));
    }
  }
}

=== FILE: engine.dfy ===
/**
  The node engine of behavior_tree/behavior_node.h as pure functions.

  `Run` and `Reset` follow BehaviorNode::Run / BehaviorNode::Reset; `Initialize`,
  `Update` and `OnTerminate` dispatch on the node kind exactly as the virtual
  OnInitialize / Update / OnTerminate overrides do. The shared context is a type
  parameter `C`; leaf actions and guard predicates are oracles supplied in an `Env`.
  Every call returns the events it caused, so that the order of initialisations and
  terminations is observable.

  The sideways write of PreconditionNode::Reevaluation into its selector parent is
  split in two: the selector passes the precondition a `Sibling` slot carrying its
  own index, the parent cursor and the events of resetting the child at the cursor;
  the precondition splices those events in where the source calls Reset, and the
  selector applies the same reset and cursor move to its own state, having computed
  the same (pure) `Reevaluation` decision.
*/
module Engine {
  import opened Wrappers
  import opened Nodes

  /**
    Oracles for what the engine cannot see: guard predicates by guard id, and each
    leaf action's OnInitialize (`start`) and Update (`step`) by leaf id. Every leaf
    action of the program has an empty OnTerminate, so a leaf needs no hook there.
  */
  datatype Env<!C> = Env(guard: (nat, C) -> bool, start: (nat, C) -> C, step: (nat, C) -> (Status, C))

  /** Where a node sits, as far as PreconditionNode::Reevaluation looks at it. */
  datatype Slot =
    | Detached                                             // root, or the parent is not a selector
    | Sibling(index: nat, cursor: nat, cancel: seq<Event>) // index among the selector's children, its cursor,
                                                           // and the events of resetting the child at the cursor

  datatype Decision = Deny | Allow | Preempt

  /** The result of one Run, Update or pass: the new state, the status, the new context and the events. */
  datatype Tick<C> = Tick(node: Node, status: Status, ctx: C, log: seq<Event>)
  datatype Pass<C> = Pass(kids: seq<Node>, cursor: nat, ctx: C, log: seq<Event>, preempted: bool, verdict: Option<Status>)
  datatype Scan<C> = Scan(kids: seq<Node>, cursor: nat, status: Status, ctx: C, log: seq<Event>)
  datatype Fan<C> = Fan(kids: seq<Node>, done: seq<bool>, successes: nat, failures: nat,
                        status: Status, ctx: C, log: seq<Event>, at: nat) // `at`: the index the loop returned at

  function SlotLog(slot: Slot): seq<Event>
  {
    if slot.Sibling? then slot.cancel else []
  }

  /** PreconditionNode::Precondition: a missing guard function evaluates to false. */
  function Holds<C>(env: Env<C>, guard: Option<nat>, ctx: C): bool
  {
    match guard
    case None => false
    case Some(g) => env.guard(g, ctx)
  }

  /** Node `c` is a precondition whose guard holds on `ctx`. */
  predicate Opens<C>(env: Env<C>, c: Node, ctx: C)
  {
    c.Precondition? && Holds(env, c.guard, ctx)
  }

  predicate LowerAborts(a: Abort) { a == AbortLowPriority || a == AbortBoth }
  predicate SelfAborts(a: Abort) { a == AbortSelf || a == AbortBoth }

  /** The first branch of Reevaluation applies: a selector parent, LOW_PRIORITY/BOTH, own index below the cursor. */
  predicate AboveCursor(p: Node, slot: Slot)
    requires p.Precondition?
  {
    slot.Sibling? && LowerAborts(p.abort) && slot.index < slot.cursor
  }

  /** PreconditionNode::Reevaluation: may the child run this tick, and does it preempt the selector's cursor? */
  function Reevaluation<C>(env: Env<C>, p: Node, slot: Slot, ctx: C): (d: Decision)
    requires p.Precondition?
    ensures d == Preempt <==> AboveCursor(p, slot) && Holds(env, p.guard, ctx)
    ensures d == Deny ==> !Holds(env, p.guard, ctx)
    ensures !Holds(env, p.guard, ctx) && AboveCursor(p, slot) ==> d == Deny
    ensures !Holds(env, p.guard, ctx) && !AboveCursor(p, slot) ==>
              (d == Allow <==> !SelfAborts(p.abort) && p.child.status == Running)
  {
    if AboveCursor(p, slot) then
      if Holds(env, p.guard, ctx) then Preempt else Deny
    else if SelfAborts(p.abort) || p.child.status != Running then
      if Holds(env, p.guard, ctx) then Allow else Deny
    else
      Allow
  }

  /** `m` is `n` with at most the per-activation state changed: cursor, done flags and counters. */
  ghost predicate SameSetup(n: Node, m: Node)
  {
    match n
    case Action(_, _) => m == n
    case Precondition(_, _, _, _, _) => m == n
    case Selector(id, st, kids, _, flags) =>
      m.Selector? && m.id == id && m.status == st && m.children == kids && m.reevaluate == flags
    case Sequence(id, st, kids, _) =>
      m.Sequence? && m.id == id && m.status == st && m.children == kids
    case Parallel(id, st, kids, t, _, _, _) =>
      m.Parallel? && m.id == id && m.status == st && m.children == kids && m.threshold == t
  }

  /**
    What OnInitialize leaves: only the per-activation state is reset, and only a leaf
    touches the context, through its own hook.
  */
  ghost predicate Reinitialized<C>(env: Env<C>, n: Node, ctx: C, r: (Node, C))
  {
    && SameSetup(n, r.0) && Restarted(r.0)
    && r.1 == (if n.Action? then env.start(n.id, ctx) else ctx)
  }

  /** OnInitialize: composites restart at cursor 0, a parallel node clears its bookkeeping, a leaf starts. */
  function Initialize<C>(env: Env<C>, n: Node, ctx: C): (r: (Node, C))
    requires Valid(n) && n.status != Running
    ensures Valid(r.0) && Ready(r.0) && ShapeOf(r.0) == ShapeOf(n) && r.0.status == n.status
    ensures Reinitialized(env, n, ctx, r)
  {
    match n
    case Action(id, _) => (n, env.start(id, ctx))
    case Precondition(_, _, _, _, _) => (n, ctx)
    case Selector(id, st, kids, _, flags) => (Selector(id, st, kids, 0, flags), ctx)
    case Sequence(id, st, kids, _) => (Sequence(id, st, kids, 0), ctx)
    case Parallel(id, st, kids, t, _, _, _) =>
      CountNone(|kids|);
      (Parallel(id, st, kids, t, seq(|kids|, _ => false), 0, 0), ctx)
  }

  /** A denied precondition fails without touching the context, and its child is Reset by OnTerminate(FAILURE). */
  lemma PreconditionDenied<C>(env: Env<C>, n: Node, slot: Slot, ctx: C)
    requires Valid(n) && n.Precondition? && Reevaluation(env, n, slot, ctx) == Deny
    ensures Run(env, n, slot, ctx).status == Failure && Run(env, n, slot, ctx).ctx == ctx
    ensures Run(env, n, slot, ctx).node.Precondition?
    ensures Run(env, n, slot, ctx).node.child == Reset(n.child).0
    decreases ShapeOf(n), 5
  {
    var u := Update(env, n, slot, ctx);
    assert u == Tick(n, Failure, ctx, []);
    assert Run(env, n, slot, ctx) == Conclude(n, u);
  }

  /**
    BehaviorNode::Run: initialise unless RUNNING, update, store the status, and
    terminate with that status unless it is RUNNING.
  */
  function Run<C>(env: Env<C>, n: Node, slot: Slot, ctx: C): (r: Tick<C>)
    requires Valid(n)
    ensures r.node.status == r.status
    ensures Valid(r.node) && ShapeOf(r.node) == ShapeOf(n)
    ensures Within(r.log, Ids(ShapeOf(n)) + Mentioned(SlotLog(slot)))
    ensures n.Precondition? && Reevaluation(env, n, slot, ctx) == Deny ==> r.status == Failure
    decreases ShapeOf(n), 4
  {
    var b := Begin(env, n, ctx);
    var u := Update(env, b.0, slot, b.1);
    var r := Conclude(n, u);
    RunWithin(n, u.log, r.log, Mentioned(SlotLog(slot)));
    r
  }

  /** The first half of BehaviorNode::Run: OnInitialize unless the node is RUNNING. */
  function Begin<C>(env: Env<C>, n: Node, ctx: C): (r: (Node, C))
    requires Valid(n)
    ensures Valid(r.0) && Ready(r.0) && ShapeOf(r.0) == ShapeOf(n) && r.0.status == n.status
    ensures n.status == Running ==> r == (n, ctx)
    ensures n.status != Running ==> Reinitialized(env, n, ctx, r)
    ensures n.Precondition? ==> r == (n, ctx)
  {
    if n.status == Running then (n, ctx) else Initialize(env, n, ctx)
  }

  lemma RunWithin(n: Node, inner: seq<Event>, log: seq<Event>, extra: set<nat>)
    requires Within(inner, Inner(ShapeOf(n)) + extra)
    requires |log| >= |Opening(n) + inner| && log[..|Opening(n) + inner|] == Opening(n) + inner
    requires Within(log[|Opening(n) + inner|..], Ids(ShapeOf(n)))
    ensures Within(log, Ids(ShapeOf(n)) + extra)
  {
    ShapeFacts(n);
    var k := |Opening(n) + inner|;
    assert log == Opening(n) + inner + log[k..];
  }

  /** The events OnInitialize contributes to a Run of `n`. */
  function Opening(n: Node): seq<Event>
  {
    if n.status == Running then [] else [Initialized(n.id)]
  }

  /** The second half of BehaviorNode::Run: store Update's status `u.status`, and terminate unless it is RUNNING. */
  function Conclude<C>(n: Node, u: Tick<C>): (r: Tick<C>)
    requires Valid(u.node.(status := u.status)) && Terminable(u.node, u.status)
    ensures r.node.status == r.status == u.status && r.ctx == u.ctx
    ensures Valid(r.node) && ShapeOf(r.node) == ShapeOf(u.node)
    ensures |r.log| >= |Opening(n) + u.log| && r.log[..|Opening(n) + u.log|] == Opening(n) + u.log
    ensures r.status == Running ==> r.log == Opening(n) + u.log
    ensures r.status != Running ==>
              && |r.log| > |Opening(n) + u.log|
              && r.log[..|Opening(n) + u.log| + 1] == Opening(n) + u.log + [Terminated(u.node.id, u.status)]
              && Within(r.log[|Opening(n) + u.log| + 1..], Inner(ShapeOf(u.node)))
    ensures Within(r.log[|Opening(n) + u.log|..], Ids(ShapeOf(u.node)))
  {
    var stored := u.node.(status := u.status);
    if u.status == Running then
      Tick(stored, Running, u.ctx, Opening(n) + u.log)
    else
      var t := OnTerminate(stored, u.status);
      var pre := Opening(n) + u.log;
      var log := pre + t.1;
      assert log[|pre|..] == t.1 && log[|pre| + 1..] == t.1[1..];
      ShapeFacts(stored);
      Tick(t.0, u.status, u.ctx, log)
  }

  /**
    What every kind's Update leaves: a well-formed node of the same shape once it
    carries the returned status, one its OnTerminate accepts, and events only of its
    descendants (and of a sibling the slot lets it cancel).
  */
  ghost predicate Updated<C>(n: Node, slot: Slot, r: Tick<C>)
  {
    && Valid(r.node.(status := r.status)) && ShapeOf(r.node) == ShapeOf(n)
    && Terminable(r.node, r.status)
    && Within(r.log, Inner(ShapeOf(n)) + Mentioned(SlotLog(slot)))
  }

  /** The kind-specific Update. The returned node does not yet carry the returned status. */
  function Update<C>(env: Env<C>, n: Node, slot: Slot, ctx: C): (r: Tick<C>)
    requires Valid(n) && Ready(n)
    ensures Updated(n, slot, r)
    ensures n.Precondition? && Reevaluation(env, n, slot, ctx) == Deny ==> r.status == Failure
    decreases ShapeOf(n), 3
  {
    match n
    case Action(id, _) =>
      var (s, c) := env.step(id, ctx);
      Tick(n, s, c, [])
    case Precondition(_, _, _, _, child) =>
      var d := Reevaluation(env, n, slot, ctx);
      if d == Deny then
        Tick(n, Failure, ctx, [])
      else
        var c := Run(env, child, Detached, ctx);
        Tick(Precondition(n.id, n.status, n.guard, n.abort, c.node), c.status, c.ctx, (if d == Preempt then slot.cancel else []) + c.log)
    case Selector(_, _, kids, _, _) =>
      if |kids| == 0 then Tick(n, Success, ctx, []) else Select(env, n, slot, ctx)
    case Sequence(_, _, kids, _) =>
      if |kids| == 0 then Tick(n, Success, ctx, []) else Follow(env, n, slot, ctx)
    case Parallel(_, _, kids, _, _, _, _) =>
      if |kids| == 0 then Tick(n, Success, ctx, []) else Gather(env, n, slot, ctx)
  }

  /** SequenceNode::Update with children: the sequence pass from the cursor. */
  function Follow<C>(env: Env<C>, n: Node, slot: Slot, ctx: C): (r: Tick<C>)
    requires Valid(n) && n.Sequence? && |n.children| > 0
    ensures Updated(n, slot, r)
    decreases ShapeOf(n), 2
  {
    var q := Chain(env, n.children, n.cursor, ctx, ShapeOf(n));
    Tick(Sequence(n.id, n.status, q.kids, q.cursor), q.status, q.ctx, q.log)
  }

  /** ParallelNode::Update with children: the parallel pass over every child not yet done. */
  function Gather<C>(env: Env<C>, n: Node, slot: Slot, ctx: C): (r: Tick<C>)
    requires Valid(n) && Ready(n) && n.Parallel? && |n.children| > 0
    ensures Updated(n, slot, r)
    decreases ShapeOf(n), 2
  {
    var q := Spread(env, n.children, n.threshold, n.done, n.successes, n.failures, 0, ctx, ShapeOf(n));
    Tick(Parallel(n.id, n.status, q.kids, n.threshold, q.done, q.successes, q.failures), q.status, q.ctx, q.log)
  }

  /** SelectorNode::Update with children: the reevaluation pass, then the resume pass unless the first decided. */
  function Select<C>(env: Env<C>, n: Node, slot: Slot, ctx: C): (r: Tick<C>)
    requires Valid(n) && n.Selector? && |n.children| > 0
    ensures Updated(n, slot, r)
    decreases ShapeOf(n), 2
  {
    var p := Reevaluate(env, n.children, n.reevaluate, n.cursor, 0, ctx, ShapeOf(n));
    if p.verdict.Some? then
      Tick(Selector(n.id, n.status, p.kids, p.cursor, n.reevaluate), p.verdict.value, p.ctx, p.log)
    else
      var q := Resume(env, p.kids, p.cursor, p.ctx, ShapeOf(n));
      Tick(Selector(n.id, n.status, q.kids, q.cursor, n.reevaluate), q.status, q.ctx, p.log + q.log)
  }

  /**
    SelectorNode::Update, first loop: each flagged child at index i < cursor is Run in
    ascending order. If it preempts (its guard holds), the child at the cursor is Reset
    and the cursor moves to i; a non-FAILURE result is returned at once, a FAILURE moves
    the cursor to i + 1 and ends the loop. A flagged child that does not preempt is
    denied (it returns FAILURE) and leaves the cursor where it is.
  */
  function Reevaluate<C>(env: Env<C>, kids: seq<Node>, flags: seq<bool>, cursor: nat, i: nat, ctx: C,
                         ghost shape: Shape): (p: Pass<C>)
    requires i <= cursor < |kids|
    requires shape.Branch? && shape.parts == ShapesOf(kids)
    requires FlagsMatch(flags, ShapesOf(kids)) && AllValid(kids)
    ensures |p.kids| == |kids| && ShapesOf(p.kids) == ShapesOf(kids) && AllValid(p.kids)
    ensures Within(p.log, IdsOfAll(shape.parts))
    ensures Reevaluated(env, kids, flags, cursor, i, ctx, p, shape)
    decreases shape, 1, cursor - i, 2
  {
    if i == cursor then
      Finished(env, kids, flags, cursor, ctx, shape);
      Pass(kids, cursor, ctx, [], false, None)
    else if !flags[i] then
      var p := Reevaluate(env, kids, flags, cursor, i + 1, ctx, shape);
      Skipped(env, kids, flags, cursor, i, ctx, p, shape);
      p
    else
      Contest(env, kids, flags, cursor, i, ctx, shape)
  }

  /**
    What the reevaluation loop from index i on guarantees about its outcome `p`: it
    preempts at the first flagged child whose guard holds on `ctx`, and only there;
    every flagged child before that one was Run and denied to FAILURE without touching
    the context, and no unflagged child is run. The events are those of the denied
    children's Runs in index order, followed by the preempting child's Run, which
    decides the rest (PreemptedAt).
  */
  ghost predicate Reevaluated<C>(env: Env<C>, kids: seq<Node>, flags: seq<bool>, cursor: nat, i: nat, ctx: C,
                                 p: Pass<C>, shape: Shape)
    requires i <= cursor < |kids| == |flags| == |p.kids| && AllValid(kids)
    requires shape.Branch? && shape.parts == ShapesOf(kids)
    decreases shape, 0, 5
  {
    && p.cursor < |kids|
    && (forall k :: 0 <= k < i ==> p.kids[k] == kids[k])
    && (forall k :: cursor < k < |kids| ==> p.kids[k] == kids[k])
    && (p.verdict.Some? ==> p.preempted)
    && (!p.preempted ==> Kept(env, kids, flags, cursor, i, ctx, p, shape))
    && (p.preempted ==> PreemptedFrom(env, kids, flags, cursor, i, ctx, p, shape))
  }

  /** No preemption: the cursor, its child and the context are kept, and every flagged child in [i, cursor) was denied. */
  ghost predicate Kept<C>(env: Env<C>, kids: seq<Node>, flags: seq<bool>, cursor: nat, i: nat, ctx: C,
                          p: Pass<C>, shape: Shape)
    requires i <= cursor < |kids| == |flags| == |p.kids| && AllValid(kids)
    requires shape.Branch? && shape.parts == ShapesOf(kids)
    decreases shape, 0, 3
  {
    && p.cursor == cursor && p.kids[cursor] == kids[cursor] && p.ctx == ctx
    && (forall k :: i <= k < cursor && !flags[k] ==> p.kids[k] == kids[k])
    && Denied(env, kids, flags, cursor, i, cursor, ctx, p, shape)
    && p.log == SiblingLogs(env, kids, flags, cursor, i, cursor, ctx, shape)
  }

  /**
    Preemption at j (`p.cursor` on a verdict, `p.cursor - 1` otherwise), and the events:
    those of the denied children's Runs, then the preempting child's.
  */
  ghost predicate PreemptedFrom<C>(env: Env<C>, kids: seq<Node>, flags: seq<bool>, cursor: nat, i: nat, ctx: C,
                                   p: Pass<C>, shape: Shape)
    requires i <= cursor < |kids| == |flags| == |p.kids| && AllValid(kids)
    requires shape.Branch? && shape.parts == ShapesOf(kids)
    decreases shape, 0, 4
  {
    var j := if p.verdict.Some? then p.cursor else p.cursor - 1;
    && PreemptedState(env, kids, flags, cursor, i, ctx, p, shape)
    && p.log == SiblingLogs(env, kids, flags, cursor, i, j, ctx, shape)
                + SiblingRun(env, kids, cursor, j, ctx, shape).log
  }

  /**
    The state after preemption at j: j is the first flagged child from i on whose guard
    holds; the flagged children before it were denied, the child at the cursor was
    Reset, and the rest is untouched.
  */
  ghost predicate PreemptedState<C>(env: Env<C>, kids: seq<Node>, flags: seq<bool>, cursor: nat, i: nat, ctx: C,
                                    p: Pass<C>, shape: Shape)
    requires i <= cursor < |kids| == |flags| == |p.kids| && AllValid(kids)
    requires shape.Branch? && shape.parts == ShapesOf(kids)
    decreases shape, 0, 3
  {
    var j := if p.verdict.Some? then p.cursor else p.cursor - 1;
    && i <= j < cursor && flags[j] && Opens(env, kids[j], ctx)
    && (forall k :: i <= k < cursor && k != j && (j < k || !flags[k]) ==> p.kids[k] == kids[k])
    && Denied(env, kids, flags, cursor, i, j, ctx, p, shape)
    && p.kids[cursor] == Reset(kids[cursor]).0
    && PreemptedAt(env, kids, cursor, ctx, j, p, shape)
  }

  /** The Run of the flagged child at index j, with the slot carrying the events of resetting the child at the cursor. */
  ghost function SiblingRun<C>(env: Env<C>, kids: seq<Node>, cursor: nat, j: nat, ctx: C, shape: Shape): (r: Tick<C>)
    requires j < cursor < |kids| && AllValid(kids)
    requires shape.Branch? && shape.parts == ShapesOf(kids)
    ensures r.node.status == r.status && Valid(r.node) && ShapeOf(r.node) == ShapeOf(kids[j])
    decreases shape, 0, 0
  {
    assert ShapeOf(kids[j]) == shape.parts[j];
    Run(env, kids[j], Sibling(j, cursor, Reset(kids[cursor]).1), ctx)
  }

  /** The events of the Runs of the flagged children in [i, j), each as a sibling on `ctx`, in index order. */
  ghost function SiblingLogs<C>(env: Env<C>, kids: seq<Node>, flags: seq<bool>, cursor: nat, i: nat, j: nat, ctx: C,
                                shape: Shape): seq<Event>
    requires i <= j <= cursor < |kids| == |flags| && AllValid(kids)
    requires shape.Branch? && shape.parts == ShapesOf(kids)
    decreases shape, 0, 1, j - i
  {
    if i == j then []
    else (if flags[i] then SiblingRun(env, kids, cursor, i, ctx, shape).log else [])
         + SiblingLogs(env, kids, flags, cursor, i + 1, j, ctx, shape)
  }

  /** Every flagged child in [i, j) has a false guard and is now the FAILURE node its own Run as a sibling left. */
  ghost predicate Denied<C>(env: Env<C>, kids: seq<Node>, flags: seq<bool>, cursor: nat, i: nat, j: nat, ctx: C,
                            p: Pass<C>, shape: Shape)
    requires i <= j <= cursor < |kids| == |flags| == |p.kids| && AllValid(kids)
    requires shape.Branch? && shape.parts == ShapesOf(kids)
    decreases shape, 0, 2
  {
    forall k :: i <= k < j && flags[k] ==>
      && !Opens(env, kids[k], ctx) && p.kids[k].status == Failure
      && p.kids[k] == SiblingRun(env, kids, cursor, k, ctx, shape).node
  }

  /**
    The pass was preempted by the flagged child at index j: that child ran with the
    slot carrying the events of resetting the child at the cursor, on the context the
    pass was entered with; its result is the verdict (none on FAILURE, the pass then
    resuming at j + 1), and its state and context are kept.
  */
  ghost predicate PreemptedAt<C>(env: Env<C>, kids: seq<Node>, cursor: nat, ctx: C, j: nat, p: Pass<C>, shape: Shape)
    requires j < cursor < |kids| == |p.kids| && AllValid(kids)
    requires shape.Branch? && shape.parts == ShapesOf(kids)
    decreases shape, 0, 2
  {
    var r := SiblingRun(env, kids, cursor, j, ctx, shape);
    && p.kids[j] == r.node && p.ctx == r.ctx
    && p.verdict == (if r.status == Failure then None else Some(r.status))
    && p.cursor == (if r.status == Failure then j + 1 else j)
  }

  /** One flagged child at index i < cursor: Run it, and preempt the cursor if its guard holds. */
  function Contest<C>(env: Env<C>, kids: seq<Node>, flags: seq<bool>, cursor: nat, i: nat, ctx: C,
                      ghost shape: Shape): (p: Pass<C>)
    requires i < cursor < |kids|
    requires shape.Branch? && shape.parts == ShapesOf(kids)
    requires FlagsMatch(flags, ShapesOf(kids)) && AllValid(kids) && flags[i]
    ensures |p.kids| == |kids| && ShapesOf(p.kids) == ShapesOf(kids) && AllValid(p.kids)
    ensures Within(p.log, IdsOfAll(shape.parts))
    ensures Reevaluated(env, kids, flags, cursor, i, ctx, p, shape)
    decreases shape, 1, cursor - i, 1
  {
    ShapeFacts(kids[i]);
    assert ShapeOf(kids[i]) == shape.parts[i];
    IdsOfPart(shape.parts, i);
    IdsOfPart(shape.parts, cursor);
    var cancelled := Reset(kids[cursor]);
    var slot := Sibling(i, cursor, cancelled.1);
    var preempt := Reevaluation(env, kids[i], slot, ctx) == Preempt;
    var r := Run(env, kids[i], slot, ctx);
    if preempt then
      Preempted(env, kids, flags, cursor, i, ctx, r, shape)
    else
      assert AboveCursor(kids[i], slot);
      PreconditionDenied(env, kids[i], slot, ctx);
      Refused(env, kids, flags, cursor, i, ctx, r, shape)
  }

  /** The flagged child at index i was denied, its Run `r` failing with the context untouched: go on with index i + 1. */
  function Refused<C>(env: Env<C>, kids: seq<Node>, flags: seq<bool>, cursor: nat, i: nat, ctx: C,
                      r: Tick<C>, ghost shape: Shape): (p: Pass<C>)
    requires i < cursor < |kids|
    requires shape.Branch? && shape.parts == ShapesOf(kids)
    requires FlagsMatch(flags, ShapesOf(kids)) && AllValid(kids) && flags[i]
    requires r == SiblingRun(env, kids, cursor, i, ctx, shape)
    requires r.status == Failure && r.ctx == ctx && !Opens(env, kids[i], ctx)
    requires Within(r.log, IdsOfAll(shape.parts))
    ensures |p.kids| == |kids| && ShapesOf(p.kids) == ShapesOf(kids) && AllValid(p.kids)
    ensures Within(p.log, IdsOfAll(shape.parts))
    ensures Reevaluated(env, kids, flags, cursor, i, ctx, p, shape)
    decreases shape, 1, cursor - i, 0
  {
    ShapesUpdate(kids, i, r.node);
    var rest := Reevaluate(env, kids[i := r.node], flags, cursor, i + 1, ctx, shape);
    var p := Pass(rest.kids, rest.cursor, rest.ctx, r.log + rest.log, rest.preempted, rest.verdict);
    DeniedStep(env, kids, flags, cursor, i, ctx, r, rest, p, shape);
    p
  }

  /** The loop at the cursor has nothing left to look at: it ends with nothing run. */
  lemma Finished<C>(env: Env<C>, kids: seq<Node>, flags: seq<bool>, cursor: nat, ctx: C, shape: Shape)
    requires cursor < |kids| == |flags| && AllValid(kids)
    requires shape.Branch? && shape.parts == ShapesOf(kids)
    ensures Reevaluated(env, kids, flags, cursor, cursor, ctx, Pass(kids, cursor, ctx, [], false, None), shape)
    decreases shape, 0, 6
  {
    var p := Pass(kids, cursor, ctx, [], false, None);
    assert SiblingLogs(env, kids, flags, cursor, cursor, cursor, ctx, shape) == [];
    assert Denied(env, kids, flags, cursor, cursor, cursor, ctx, p, shape);
    assert Kept(env, kids, flags, cursor, cursor, ctx, p, shape);
  }

  /** An unflagged child is passed over: the loop from i + 1 on tells all about the loop from i on. */
  lemma Skipped<C>(env: Env<C>, kids: seq<Node>, flags: seq<bool>, cursor: nat, i: nat, ctx: C, p: Pass<C>,
                   shape: Shape)
    requires i < cursor < |kids| == |flags| == |p.kids| && AllValid(kids) && !flags[i]
    requires shape.Branch? && shape.parts == ShapesOf(kids)
    requires Reevaluated(env, kids, flags, cursor, i + 1, ctx, p, shape)
    ensures Reevaluated(env, kids, flags, cursor, i, ctx, p, shape)
    decreases shape, 0, 6
  {
    assert p.kids[i] == kids[i];
    if p.preempted {
      SkippedBeforePreempt(env, kids, flags, cursor, i, ctx, p, shape);
    } else {
      SkippedThroughout(env, kids, flags, cursor, i, ctx, p, shape);
    }
  }

  lemma SkippedThroughout<C>(env: Env<C>, kids: seq<Node>, flags: seq<bool>, cursor: nat, i: nat, ctx: C, p: Pass<C>,
                             shape: Shape)
    requires i < cursor < |kids| == |flags| == |p.kids| && AllValid(kids) && !flags[i]
    requires p.kids[i] == kids[i]
    requires shape.Branch? && shape.parts == ShapesOf(kids)
    requires Kept(env, kids, flags, cursor, i + 1, ctx, p, shape)
    ensures Kept(env, kids, flags, cursor, i, ctx, p, shape)
    decreases shape, 0, 4
  {
    assert SiblingLogs(env, kids, flags, cursor, i, cursor, ctx, shape)
        == SiblingLogs(env, kids, flags, cursor, i + 1, cursor, ctx, shape);
    assert Denied(env, kids, flags, cursor, i + 1, cursor, ctx, p, shape);
    assert Denied(env, kids, flags, cursor, i, cursor, ctx, p, shape);
  }

  lemma SkippedBeforePreempt<C>(env: Env<C>, kids: seq<Node>, flags: seq<bool>, cursor: nat, i: nat, ctx: C,
                                p: Pass<C>, shape: Shape)
    requires i < cursor < |kids| == |flags| == |p.kids| && AllValid(kids) && !flags[i]
    requires p.kids[i] == kids[i]
    requires shape.Branch? && shape.parts == ShapesOf(kids)
    requires PreemptedFrom(env, kids, flags, cursor, i + 1, ctx, p, shape)
    ensures PreemptedFrom(env, kids, flags, cursor, i, ctx, p, shape)
    decreases shape, 0, 5
  {
    var j := if p.verdict.Some? then p.cursor else p.cursor - 1;
    assert SiblingLogs(env, kids, flags, cursor, i, j, ctx, shape)
        == SiblingLogs(env, kids, flags, cursor, i + 1, j, ctx, shape);
    assert Denied(env, kids, flags, cursor, i + 1, j, ctx, p, shape);
    assert Denied(env, kids, flags, cursor, i, j, ctx, p, shape);
  }

  /** What a denied child at index i hands on: its Run `r` failed, and `p` puts its events before those of the loop `rest` from i + 1. */
  ghost predicate DeniedAt<C>(env: Env<C>, kids: seq<Node>, flags: seq<bool>, cursor: nat, i: nat, ctx: C,
                              r: Tick<C>, rest: Pass<C>, p: Pass<C>, shape: Shape)
    requires i < cursor < |kids| == |flags| && AllValid(kids)
    requires shape.Branch? && shape.parts == ShapesOf(kids)
    decreases shape, 0, 6
  {
    && flags[i] && !Opens(env, kids[i], ctx)
    && r == SiblingRun(env, kids, cursor, i, ctx, shape) && r.status == Failure
    && ShapesOf(kids[i := r.node]) == ShapesOf(kids) && AllValid(kids[i := r.node]) && |rest.kids| == |kids|
    && Reevaluated(env, kids[i := r.node], flags, cursor, i + 1, ctx, rest, shape)
    && p == Pass(rest.kids, rest.cursor, rest.ctx, r.log + rest.log, rest.preempted, rest.verdict)
  }

  /** Bookkeeping for a flagged child that was denied: the loop from i + 1 on tells all about the loop from i on. */
  lemma DeniedStep<C>(env: Env<C>, kids: seq<Node>, flags: seq<bool>, cursor: nat, i: nat, ctx: C, r: Tick<C>,
                      rest: Pass<C>, p: Pass<C>, shape: Shape)
    requires i < cursor < |kids| == |flags| && AllValid(kids)
    requires shape.Branch? && shape.parts == ShapesOf(kids)
    requires DeniedAt(env, kids, flags, cursor, i, ctx, r, rest, p, shape)
    ensures Reevaluated(env, kids, flags, cursor, i, ctx, p, shape)
    decreases shape, 0, 7
  {
    var kx := kids[i := r.node];
    assert rest.kids[i] == kx[i] == r.node;
    assert forall k :: 0 <= k < |kids| && k != i ==> kx[k] == kids[k];
    if p.preempted {
      assert PreemptedFrom(env, kx, flags, cursor, i + 1, ctx, rest, shape);
      assert PreemptedState(env, kx, flags, cursor, i + 1, ctx, rest, shape);
      var j := if p.verdict.Some? then p.cursor else p.cursor - 1;
      assert Denied(env, kx, flags, cursor, i + 1, j, ctx, rest, shape);
      DeniedPast(env, kids, flags, cursor, i, ctx, r, j, rest, p, shape);
      DeniedLogs(env, kids, flags, cursor, i, j, ctx, r, shape);
      DeniedBeforePreempt(env, kids, flags, cursor, i, ctx, r, rest, p, shape);
    } else {
      assert Kept(env, kx, flags, cursor, i + 1, ctx, rest, shape);
      assert Denied(env, kx, flags, cursor, i + 1, cursor, ctx, rest, shape);
      DeniedPast(env, kids, flags, cursor, i, ctx, r, cursor, rest, p, shape);
      DeniedLogs(env, kids, flags, cursor, i, cursor, ctx, r, shape);
      DeniedThroughout(env, kids, flags, cursor, i, ctx, r, rest, p, shape);
    }
  }

  /** A denied child followed by no preemption: nothing before the cursor opened. */
  lemma DeniedThroughout<C>(env: Env<C>, kids: seq<Node>, flags: seq<bool>, cursor: nat, i: nat, ctx: C, r: Tick<C>,
                            rest: Pass<C>, p: Pass<C>, shape: Shape)
    requires i < cursor < |kids| == |flags| == |rest.kids| && AllValid(kids) && flags[i]
    requires shape.Branch? && shape.parts == ShapesOf(kids)
    requires r == SiblingRun(env, kids, cursor, i, ctx, shape)
    requires ShapesOf(kids[i := r.node]) == ShapesOf(kids) && AllValid(kids[i := r.node])
    requires Kept(env, kids[i := r.node], flags, cursor, i + 1, ctx, rest, shape)
    requires p == Pass(rest.kids, rest.cursor, rest.ctx, r.log + rest.log, rest.preempted, rest.verdict)
    requires Denied(env, kids, flags, cursor, i, cursor, ctx, p, shape)
    requires SiblingLogs(env, kids, flags, cursor, i, cursor, ctx, shape)
          == r.log + SiblingLogs(env, kids[i := r.node], flags, cursor, i + 1, cursor, ctx, shape)
    ensures Kept(env, kids, flags, cursor, i, ctx, p, shape)
    decreases shape, 0, 4
  {
    assert kids[i := r.node][cursor] == kids[cursor];
    assert forall k :: i < k < cursor ==> kids[i := r.node][k] == kids[k];
  }

  /** A denied child followed by a preemption further on: the preempting child ran on the same context. */
  lemma DeniedBeforePreempt<C>(env: Env<C>, kids: seq<Node>, flags: seq<bool>, cursor: nat, i: nat, ctx: C,
                               r: Tick<C>, rest: Pass<C>, p: Pass<C>, shape: Shape)
    requires i < cursor < |kids| == |flags| == |rest.kids| && AllValid(kids) && flags[i]
    requires shape.Branch? && shape.parts == ShapesOf(kids)
    requires r == SiblingRun(env, kids, cursor, i, ctx, shape)
    requires ShapesOf(kids[i := r.node]) == ShapesOf(kids) && AllValid(kids[i := r.node])
    requires PreemptedFrom(env, kids[i := r.node], flags, cursor, i + 1, ctx, rest, shape)
    requires p == Pass(rest.kids, rest.cursor, rest.ctx, r.log + rest.log, rest.preempted, rest.verdict)
    requires var j := if p.verdict.Some? then p.cursor else p.cursor - 1;
             && i < j < cursor
             && Denied(env, kids, flags, cursor, i, j, ctx, p, shape)
             && SiblingLogs(env, kids, flags, cursor, i, j, ctx, shape)
                == r.log + SiblingLogs(env, kids[i := r.node], flags, cursor, i + 1, j, ctx, shape)
    ensures PreemptedFrom(env, kids, flags, cursor, i, ctx, p, shape)
    decreases shape, 0, 5
  {
    var kx := kids[i := r.node];
    var j := if p.verdict.Some? then p.cursor else p.cursor - 1;
    DeniedBeforeState(env, kids, flags, cursor, i, ctx, r, rest, p, shape);
    SiblingRunAway(env, kids, cursor, i, r.node, j, ctx, shape);
    var tail := SiblingRun(env, kids, cursor, j, ctx, shape).log;
    var before := SiblingLogs(env, kx, flags, cursor, i + 1, j, ctx, shape);
    assert rest.log == before + tail;
    Regroup(p.log, r.log, rest.log, before, SiblingLogs(env, kids, flags, cursor, i, j, ctx, shape), tail);
  }

  /** The state half of DeniedBeforePreempt. */
  lemma DeniedBeforeState<C>(env: Env<C>, kids: seq<Node>, flags: seq<bool>, cursor: nat, i: nat, ctx: C,
                             r: Tick<C>, rest: Pass<C>, p: Pass<C>, shape: Shape)
    requires i < cursor < |kids| == |flags| == |rest.kids| && AllValid(kids) && flags[i]
    requires shape.Branch? && shape.parts == ShapesOf(kids)
    requires r == SiblingRun(env, kids, cursor, i, ctx, shape)
    requires ShapesOf(kids[i := r.node]) == ShapesOf(kids) && AllValid(kids[i := r.node])
    requires PreemptedState(env, kids[i := r.node], flags, cursor, i + 1, ctx, rest, shape)
    requires p == Pass(rest.kids, rest.cursor, rest.ctx, r.log + rest.log, rest.preempted, rest.verdict)
    requires var j := if p.verdict.Some? then p.cursor else p.cursor - 1;
             i < j < cursor && Denied(env, kids, flags, cursor, i, j, ctx, p, shape)
    ensures PreemptedState(env, kids, flags, cursor, i, ctx, p, shape)
    decreases shape, 0, 4
  {
    var kx := kids[i := r.node];
    var j := if p.verdict.Some? then p.cursor else p.cursor - 1;
    assert j == if rest.verdict.Some? then rest.cursor else rest.cursor - 1;
    assert kx[cursor] == kids[cursor] && kx[j] == kids[j];
    assert i + 1 <= j < cursor && flags[j] && Opens(env, kids[j], ctx);
    assert p.kids[cursor] == Reset(kids[cursor]).0;
    assert forall k :: i < k < cursor ==> kx[k] == kids[k];
    assert forall k :: i <= k < cursor && k != j && (j < k || !flags[k]) ==> p.kids[k] == kids[k];
    assert PreemptedAt(env, kx, cursor, ctx, j, rest, shape);
    PreemptedPast(env, kids, cursor, ctx, i, r.node, j, rest, p, shape);
  }

  /** Events `first` then `rest`, where `rest` is `before` then `tail`, are `first` and `before` (together `all`) then `tail`. */
  lemma Regroup(log: seq<Event>, first: seq<Event>, rest: seq<Event>, before: seq<Event>, all: seq<Event>,
                tail: seq<Event>)
    requires log == first + rest && rest == before + tail && all == first + before
    ensures log == all + tail
  {
  }

  /** The events of a denied child at i come first among the sibling Runs from i on. */
  lemma DeniedLogs<C>(env: Env<C>, kids: seq<Node>, flags: seq<bool>, cursor: nat, i: nat, j: nat, ctx: C,
                      r: Tick<C>, shape: Shape)
    requires i < j <= cursor < |kids| == |flags| && AllValid(kids) && flags[i]
    requires shape.Branch? && shape.parts == ShapesOf(kids)
    requires r == SiblingRun(env, kids, cursor, i, ctx, shape)
    requires ShapesOf(kids[i := r.node]) == ShapesOf(kids) && AllValid(kids[i := r.node])
    ensures SiblingLogs(env, kids, flags, cursor, i, j, ctx, shape)
         == r.log + SiblingLogs(env, kids[i := r.node], flags, cursor, i + 1, j, ctx, shape)
    decreases shape, 0, 3
  {
    SiblingLogsAway(env, kids, flags, cursor, i, r.node, i + 1, j, ctx, shape);
  }

  /** Runs of children other than i, as siblings, do not look at child i. */
  lemma SiblingRunAway<C>(env: Env<C>, kids: seq<Node>, cursor: nat, i: nat, x: Node, k: nat, ctx: C, shape: Shape)
    requires i < cursor && k < cursor < |kids| && k != i && AllValid(kids) && AllValid(kids[i := x])
    requires shape.Branch? && shape.parts == ShapesOf(kids) && ShapesOf(kids[i := x]) == ShapesOf(kids)
    ensures SiblingRun(env, kids[i := x], cursor, k, ctx, shape) == SiblingRun(env, kids, cursor, k, ctx, shape)
    decreases shape, 0, 1
  {
    assert kids[i := x][k] == kids[k] && kids[i := x][cursor] == kids[cursor];
  }

  /** The events of the sibling Runs in [lo, hi) do not depend on child i < lo. */
  lemma {:induction false} SiblingLogsAway<C>(env: Env<C>, kids: seq<Node>, flags: seq<bool>, cursor: nat, i: nat,
                                              x: Node, lo: nat, hi: nat, ctx: C, shape: Shape)
    requires i < lo <= hi <= cursor < |kids| == |flags| && AllValid(kids) && AllValid(kids[i := x])
    requires shape.Branch? && shape.parts == ShapesOf(kids) && ShapesOf(kids[i := x]) == ShapesOf(kids)
    ensures SiblingLogs(env, kids[i := x], flags, cursor, lo, hi, ctx, shape)
         == SiblingLogs(env, kids, flags, cursor, lo, hi, ctx, shape)
    decreases shape, 0, 2, hi - lo
  {
    if lo < hi {
      SiblingRunAway(env, kids, cursor, i, x, lo, ctx, shape);
      SiblingLogsAway(env, kids, flags, cursor, i, x, lo + 1, hi, ctx, shape);
    }
  }

  /** The denied children past i stay denied once child i's own denial is added in front. */
  lemma DeniedPast<C>(env: Env<C>, kids: seq<Node>, flags: seq<bool>, cursor: nat, i: nat, ctx: C, r: Tick<C>,
                      end: nat, rest: Pass<C>, p: Pass<C>, shape: Shape)
    requires i < end <= cursor < |kids| == |flags| && AllValid(kids)
    requires shape.Branch? && shape.parts == ShapesOf(kids)
    requires flags[i] && !Opens(env, kids[i], ctx)
    requires r == SiblingRun(env, kids, cursor, i, ctx, shape) && r.status == Failure
    requires ShapesOf(kids[i := r.node]) == ShapesOf(kids) && AllValid(kids[i := r.node]) && |rest.kids| == |kids|
    requires Denied(env, kids[i := r.node], flags, cursor, i + 1, end, ctx, rest, shape)
    requires p.kids == rest.kids && rest.kids[i] == r.node
    ensures Denied(env, kids, flags, cursor, i, end, ctx, p, shape)
    decreases shape, 0, 3
  {
    forall k | i <= k < end && flags[k]
      ensures !Opens(env, kids[k], ctx) && p.kids[k].status == Failure
      ensures p.kids[k] == SiblingRun(env, kids, cursor, k, ctx, shape).node
    {
      if k != i {
        assert kids[i := r.node][k] == kids[k];
        SiblingRunAway(env, kids, cursor, i, r.node, k, ctx, shape);
      }
    }
  }

  /** A preemption at j > i survives replacing child i: the preempting Run does not look at child i. */
  lemma PreemptedPast<C>(env: Env<C>, kids: seq<Node>, cursor: nat, ctx: C, i: nat, x: Node, j: nat,
                         rest: Pass<C>, p: Pass<C>, shape: Shape)
    requires i < j < cursor < |kids| == |rest.kids| == |p.kids| && AllValid(kids) && AllValid(kids[i := x])
    requires shape.Branch? && shape.parts == ShapesOf(kids) && ShapesOf(kids[i := x]) == ShapesOf(kids)
    requires PreemptedAt(env, kids[i := x], cursor, ctx, j, rest, shape)
    requires p.kids == rest.kids && p.cursor == rest.cursor && p.verdict == rest.verdict && p.ctx == rest.ctx
    ensures PreemptedAt(env, kids, cursor, ctx, j, p, shape)
    decreases shape, 0, 3
  {
    SiblingRunAway(env, kids, cursor, i, x, j, ctx, shape);
  }

  /**
    The flagged child at index i < cursor preempted the cursor and returned `r`: the
    child at the cursor has been Reset, and the cursor is i (to return a non-FAILURE
    result) or i + 1 (to resume after a FAILURE).
  */
  function Preempted<C>(env: Env<C>, kids: seq<Node>, flags: seq<bool>, cursor: nat, i: nat, ctx: C,
                        r: Tick<C>, ghost shape: Shape): (p: Pass<C>)
    requires i < cursor < |kids| && AllValid(kids) && FlagsMatch(flags, ShapesOf(kids)) && flags[i]
    requires shape.Branch? && shape.parts == ShapesOf(kids)
    requires Opens(env, kids[i], ctx)
    requires r == SiblingRun(env, kids, cursor, i, ctx, shape)
    ensures |p.kids| == |kids| && ShapesOf(p.kids) == ShapesOf(kids) && AllValid(p.kids)
    ensures p.log == r.log
    ensures Reevaluated(env, kids, flags, cursor, i, ctx, p, shape)
    decreases shape, 1, cursor - i, 0
  {
    var cancelled := Reset(kids[cursor]);
    ShapesUpdate(kids, cursor, cancelled.0);
    ShapesUpdate(kids[cursor := cancelled.0], i, r.node);
    var kids' := kids[cursor := cancelled.0][i := r.node];
    var p := Pass(kids', if r.status != Failure then i else i + 1, r.ctx, r.log, true,
                  if r.status != Failure then Some(r.status) else None);
    PreemptStep(env, kids, flags, cursor, i, ctx, r, p, shape);
    p
  }

  /** Bookkeeping for the preempting child at index i: the pass it ends satisfies the pass guarantee from i on. */
  lemma PreemptStep<C>(env: Env<C>, kids: seq<Node>, flags: seq<bool>, cursor: nat, i: nat, ctx: C,
                       r: Tick<C>, p: Pass<C>, shape: Shape)
    requires i < cursor < |kids| && AllValid(kids) && FlagsMatch(flags, ShapesOf(kids)) && flags[i]
    requires shape.Branch? && shape.parts == ShapesOf(kids)
    requires Opens(env, kids[i], ctx)
    requires r == SiblingRun(env, kids, cursor, i, ctx, shape)
    requires p.kids == kids[cursor := Reset(kids[cursor]).0][i := r.node] && p.ctx == r.ctx && p.log == r.log
    requires p.preempted && p.verdict == (if r.status != Failure then Some(r.status) else None)
    requires p.cursor == (if r.status != Failure then i else i + 1)
    ensures Reevaluated(env, kids, flags, cursor, i, ctx, p, shape)
    decreases shape, 0, 6
  {
    assert (if p.verdict.Some? then p.cursor else p.cursor - 1) == i;
    assert p.kids[cursor] == Reset(kids[cursor]).0;
    forall k | 0 <= k < |kids| && k != i && k != cursor ensures p.kids[k] == kids[k] {
    }
    assert SiblingLogs(env, kids, flags, cursor, i, i, ctx, shape) == [];
    assert Denied(env, kids, flags, cursor, i, i, ctx, p, shape);
    assert PreemptedAt(env, kids, cursor, ctx, i, p, shape);
    assert PreemptedFrom(env, kids, flags, cursor, i, ctx, p, shape);
  }

  /**
    SelectorNode::Update, second loop: from the cursor, Run each child; the first
    non-FAILURE result is returned with the cursor left on that child; when every
    remaining child fails the cursor goes back to 0 and FAILURE is returned.
  */
  function Resume<C>(env: Env<C>, kids: seq<Node>, cursor: nat, ctx: C, ghost shape: Shape): (s: Scan<C>)
    requires cursor < |kids|
    requires shape.Branch? && shape.parts == ShapesOf(kids) && AllValid(kids)
    ensures |s.kids| == |kids| && ShapesOf(s.kids) == ShapesOf(kids) && AllValid(s.kids)
    ensures Within(s.log, IdsOfAll(shape.parts))
    ensures Scanned(kids, cursor, Failure, s)
    decreases shape, 1, |kids| - cursor
  {
    assert ShapeOf(kids[cursor]) == shape.parts[cursor];
    IdsOfPart(shape.parts, cursor);
    var r := Run(env, kids[cursor], Sibling(cursor, cursor, []), ctx);
    ShapesUpdate(kids, cursor, r.node);
    var kids' := kids[cursor := r.node];
    if r.status != Failure then
      Scan(kids', cursor, r.status, r.ctx, r.log)
    else if cursor + 1 == |kids| then
      Scan(kids', 0, Failure, r.ctx, r.log)
    else
      var rest := Resume(env, kids', cursor + 1, r.ctx, shape);
      var s := Scan(rest.kids, rest.cursor, rest.status, rest.ctx, r.log + rest.log);
      Scanning(kids, cursor, Failure, r.node, rest, s);
      s
  }

  /**
    What a resume or sequence pass from `cursor` guarantees about its outcome `s`, where
    `pass` is the status that moves it on to the next child: the children before the
    cursor are untouched; a result other than `pass` comes from the child the cursor is
    left on, every child between passed and every child after is untouched; a `pass`
    result means every child from the cursor on passed and the cursor is back at 0.
  */
  ghost predicate Scanned<C>(kids: seq<Node>, cursor: nat, pass: Status, s: Scan<C>)
    requires cursor < |kids|
  {
    && |s.kids| == |kids| && s.cursor < |kids|
    && (forall k :: 0 <= k < cursor ==> s.kids[k] == kids[k])
    && (s.status != pass ==>
          && cursor <= s.cursor && s.kids[s.cursor].status == s.status
          && (forall k :: cursor <= k < s.cursor ==> s.kids[k].status == pass)
          && (forall k :: s.cursor < k < |kids| ==> s.kids[k] == kids[k]))
    && (s.status == pass ==>
          s.cursor == 0 && forall k :: cursor <= k < |kids| ==> s.kids[k].status == pass)
  }

  /** Child `cursor` passed as `x`: the pass from the next child on tells all. */
  lemma Scanning<C>(kids: seq<Node>, cursor: nat, pass: Status, x: Node, rest: Scan<C>, s: Scan<C>)
    requires cursor + 1 < |kids| && x.status == pass
    requires Scanned(kids[cursor := x], cursor + 1, pass, rest)
    requires s.kids == rest.kids && s.cursor == rest.cursor && s.status == rest.status
    ensures Scanned(kids, cursor, pass, s)
  {
    assert s.kids[cursor] == x;
  }

  /**
    SequenceNode::Update: from the cursor, Run each child; the first non-SUCCESS result
    is returned as it is with the cursor left on that child; when every remaining
    child succeeds the cursor goes back to 0 and SUCCESS is returned.
  */
  function Chain<C>(env: Env<C>, kids: seq<Node>, cursor: nat, ctx: C, ghost shape: Shape): (s: Scan<C>)
    requires cursor < |kids|
    requires shape.Branch? && shape.parts == ShapesOf(kids) && AllValid(kids)
    ensures |s.kids| == |kids| && ShapesOf(s.kids) == ShapesOf(kids) && AllValid(s.kids)
    ensures Within(s.log, IdsOfAll(shape.parts))
    ensures Scanned(kids, cursor, Success, s)
    decreases shape, 1, |kids| - cursor
  {
    assert ShapeOf(kids[cursor]) == shape.parts[cursor];
    IdsOfPart(shape.parts, cursor);
    var r := Run(env, kids[cursor], Detached, ctx);
    ShapesUpdate(kids, cursor, r.node);
    var kids' := kids[cursor := r.node];
    if r.status != Success then
      Scan(kids', cursor, r.status, r.ctx, r.log)
    else if cursor + 1 == |kids| then
      Scan(kids', 0, Success, r.ctx, r.log)
    else
      var rest := Chain(env, kids', cursor + 1, r.ctx, shape);
      var s := Scan(rest.kids, rest.cursor, rest.status, rest.ctx, r.log + rest.log);
      Scanning(kids, cursor, Success, r.node, rest, s);
      s
  }

  /**
    ParallelNode::Update from index i on: every child not yet done this activation is
    Run in order; a SUCCESS or FAILURE marks it done and bumps the matching counter,
    returning SUCCESS once successes >= threshold and FAILURE once
    failures >= size - threshold; otherwise RUNNING after the last child.
  */
  function Spread<C>(env: Env<C>, kids: seq<Node>, threshold: nat, done: seq<bool>, successes: nat,
                     failures: nat, i: nat, ctx: C, ghost shape: Shape): (r: Fan<C>)
    requires 1 <= threshold <= |kids| && i <= |kids|
    requires FanInv(|kids|, threshold, done, successes, failures)
    requires shape.Branch? && shape.parts == ShapesOf(kids) && AllValid(kids)
    ensures |r.kids| == |kids| && ShapesOf(r.kids) == ShapesOf(kids) && AllValid(r.kids)
    ensures Within(r.log, IdsOfAll(shape.parts))
    ensures Spreaded(kids, threshold, done, successes, failures, i, r)
    decreases shape, 1, |kids| - i, 2
  {
    if i == |kids| then
      Fan(kids, done, successes, failures, Running, ctx, [], |kids|)
    else if done[i] then
      Spread(env, kids, threshold, done, successes, failures, i + 1, ctx, shape)
    else
      Visit(env, kids, threshold, done, successes, failures, i, ctx, shape)
  }

  /**
    What the parallel loop from index i on guarantees about its outcome `r`. It returns
    at the first child whose conclusion crosses a threshold (index `r.at`), leaving
    every later child untouched: SUCCESS exactly when successes reach the threshold,
    FAILURE when failures reach size - threshold (at least one failure) before that;
    RUNNING after the last child, with neither threshold crossed.
  */
  ghost predicate Spreaded<C>(kids: seq<Node>, threshold: nat, done: seq<bool>, successes: nat, failures: nat,
                              i: nat, r: Fan<C>)
    requires i <= |kids| == |done| == |r.kids|
  {
    && FanFrame(kids, done, i, r)
    && FanStop(kids, done, i, r)
    && FanCounts(|kids|, threshold, successes, failures, r)
  }

  /** Children done before, and children before i, are untouched; a newly done child concluded. */
  ghost predicate FanFrame<C>(kids: seq<Node>, done: seq<bool>, i: nat, r: Fan<C>)
    requires i <= |kids| == |done| == |r.kids|
  {
    && |r.done| == |kids|
    && (forall k :: 0 <= k < |kids| && done[k] ==> r.done[k] && r.kids[k] == kids[k])
    && (forall k :: 0 <= k < i ==> r.done[k] == done[k] && r.kids[k] == kids[k])
    && (forall k :: 0 <= k < |kids| && r.done[k] && !done[k] ==>
          r.kids[k].status == Success || r.kids[k].status == Failure)
  }

  /** The loop returns at index `r.at`, a child it has just seen conclude, or runs to the end; later children are untouched. */
  ghost predicate FanStop<C>(kids: seq<Node>, done: seq<bool>, i: nat, r: Fan<C>)
    requires i <= |kids| == |done| == |r.kids|
  {
    && |r.done| == |kids| && i <= r.at <= |kids|
    && (forall k :: r.at < k < |kids| ==> r.done[k] == done[k] && r.kids[k] == kids[k])
    && (r.status == Running <==> r.at == |kids|)
    && (r.status != Running ==>
          r.at < |kids| && !done[r.at] && r.done[r.at] && r.kids[r.at].status == r.status)
  }

  /** The counters and the returned status: which threshold was crossed, and that the other one was not. */
  ghost predicate FanCounts<C>(size: nat, threshold: nat, successes: nat, failures: nat, r: Fan<C>)
  {
    && Count(r.done) == r.successes + r.failures
    && r.successes >= successes && r.failures >= failures
    && (r.status == Success || r.status == Failure || r.status == Running)
    && (r.status == Success ==> r.successes == threshold && (r.failures == 0 || r.failures < size - threshold))
    && (r.status == Failure ==>
          r.successes < threshold && r.failures == (if threshold == size then 1 else size - threshold))
    && (r.status == Running ==> FanInv(size, threshold, r.done, r.successes, r.failures))
  }

  /** One child not yet done this activation: Run it and count its conclusion. */
  function Visit<C>(env: Env<C>, kids: seq<Node>, threshold: nat, done: seq<bool>, successes: nat,
                    failures: nat, i: nat, ctx: C, ghost shape: Shape): (r: Fan<C>)
    requires 1 <= threshold <= |kids| && i < |kids|
    requires FanInv(|kids|, threshold, done, successes, failures) && !done[i]
    requires shape.Branch? && shape.parts == ShapesOf(kids) && AllValid(kids)
    ensures |r.kids| == |kids| && ShapesOf(r.kids) == ShapesOf(kids) && AllValid(r.kids)
    ensures Within(r.log, IdsOfAll(shape.parts))
    ensures Spreaded(kids, threshold, done, successes, failures, i, r)
    decreases shape, 1, |kids| - i, 1
  {
    assert ShapeOf(kids[i]) == shape.parts[i];
    IdsOfPart(shape.parts, i);
    var c := Run(env, kids[i], Detached, ctx);
    Settle(env, kids, threshold, done, successes, failures, i, c, shape)
  }

  /** Child i has run as `c`: count it, and return if a threshold is crossed, else go on with the next child. */
  function Settle<C>(env: Env<C>, kids: seq<Node>, threshold: nat, done: seq<bool>, successes: nat,
                     failures: nat, i: nat, c: Tick<C>, ghost shape: Shape): (r: Fan<C>)
    requires 1 <= threshold <= |kids| && i < |kids|
    requires FanInv(|kids|, threshold, done, successes, failures) && !done[i]
    requires shape.Branch? && shape.parts == ShapesOf(kids) && AllValid(kids)
    requires Valid(c.node) && ShapeOf(c.node) == ShapeOf(kids[i]) && c.node.status == c.status
    requires Within(c.log, IdsOfAll(shape.parts))
    ensures |r.kids| == |kids| && ShapesOf(r.kids) == ShapesOf(kids) && AllValid(r.kids)
    ensures Within(r.log, IdsOfAll(shape.parts))
    ensures Spreaded(kids, threshold, done, successes, failures, i, r)
    decreases shape, 1, |kids| - i, 0
  {
    ShapesUpdate(kids, i, c.node);
    var kids' := kids[i := c.node];
    var t := Tally(done, successes, failures, i, c.status);
    if (c.status == Success && t.1 >= threshold) || (c.status == Failure && t.2 >= |kids| - threshold) then
      var r := Fan(kids', t.0, t.1, t.2, c.status, c.ctx, c.log, i);
      Stopped(kids, threshold, done, successes, failures, i, c.node, t, r);
      r
    else
      var rest := Spread(env, kids', threshold, t.0, t.1, t.2, i + 1, c.ctx, shape);
      var r := Fan(rest.kids, rest.done, rest.successes, rest.failures, rest.status, rest.ctx, c.log + rest.log, rest.at);
      Stepped(kids, threshold, done, successes, failures, i, c.node, t, rest, r);
      r
  }

  /** The counters after child i settles with `st`: marked done and counted iff it concluded. */
  function Tally(done: seq<bool>, successes: nat, failures: nat, i: nat, st: Status): (t: (seq<bool>, nat, nat))
    requires i < |done| && !done[i] && Count(done) == successes + failures
    ensures |t.0| == |done| && Count(t.0) == t.1 + t.2
    ensures forall k :: 0 <= k < |done| && k != i ==> t.0[k] == done[k]
    ensures t.0[i] <==> st == Success || st == Failure
    ensures t.1 == (if st == Success then successes + 1 else successes)
    ensures t.2 == (if st == Failure then failures + 1 else failures)
  {
    if st == Success || st == Failure then
      CountSet(done, i);
      (done[i := true], if st == Success then successes + 1 else successes,
       if st == Failure then failures + 1 else failures)
    else
      (done, successes, failures)
  }

  /** Bookkeeping for a parallel loop that stops at child i because a threshold was reached. */
  lemma Stopped<C>(kids: seq<Node>, threshold: nat, done: seq<bool>, successes: nat, failures: nat,
                   i: nat, x: Node, t: (seq<bool>, nat, nat), r: Fan<C>)
    requires 1 <= threshold <= |kids| && i < |kids|
    requires FanInv(|kids|, threshold, done, successes, failures) && !done[i]
    requires t == Tally(done, successes, failures, i, x.status)
    requires (x.status == Success && t.1 >= threshold) || (x.status == Failure && t.2 >= |kids| - threshold)
    requires r.kids == kids[i := x] && r.done == t.0 && r.successes == t.1 && r.failures == t.2
    requires r.status == x.status && r.at == i
    ensures Spreaded(kids, threshold, done, successes, failures, i, r)
  {
  }

  /** Bookkeeping for a parallel loop that passes child i: the loop from i + 1 on tells all. */
  lemma Stepped<C>(kids: seq<Node>, threshold: nat, done: seq<bool>, successes: nat, failures: nat,
                   i: nat, x: Node, t: (seq<bool>, nat, nat), rest: Fan<C>, r: Fan<C>)
    requires 1 <= threshold <= |kids| && i < |kids|
    requires FanInv(|kids|, threshold, done, successes, failures) && !done[i]
    requires t == Tally(done, successes, failures, i, x.status)
    requires !((x.status == Success && t.1 >= threshold) || (x.status == Failure && t.2 >= |kids| - threshold))
    requires |rest.kids| == |kids|
    requires Spreaded(kids[i := x], threshold, t.0, t.1, t.2, i + 1, rest)
    requires r.kids == rest.kids && r.done == rest.done && r.successes == rest.successes
    requires r.failures == rest.failures && r.status == rest.status && r.at == rest.at
    ensures Spreaded(kids, threshold, done, successes, failures, i, r)
  {
    assert r.kids[i] == x;
    assert forall k :: i < k < |kids| ==> kids[i := x][k] == kids[k];
  }

  /**
    OnTerminate(state): a precondition resets its child on IDLE and FAILURE; a selector
    or sequence resets the child at its cursor on IDLE; a parallel node resets every
    child; a leaf does nothing.
  */
  function OnTerminate(n: Node, s: Status): (r: (Node, seq<Event>))
    requires Valid(n) && s != Running && n.status == s && Terminable(n, s)
    ensures Valid(r.0) && ShapeOf(r.0) == ShapeOf(n) && r.0.status == n.status
    ensures |r.1| > 0 && r.1[0] == Terminated(n.id, s) && Within(r.1[1..], Inner(ShapeOf(n)))
    decreases ShapeOf(n), 1
  {
    var head := [Terminated(n.id, s)];
    ValidParts(n);
    match n
    case Action(_, _) => (n, head)
    case Precondition(id, st, g, a, child) =>
      if s == Idle || s == Failure then
        var c := Reset(child);
        (Precondition(id, st, g, a, c.0), head + c.1)
      else
        (n, head)
    case Selector(id, st, kids, cursor, flags) =>
      if s == Idle then
        assert ShapeOf(kids[cursor]) == ShapeOf(n).parts[cursor];
        IdsOfPart(ShapeOf(n).parts, cursor);
        var c := Reset(kids[cursor]);
        ShapesUpdate(kids, cursor, c.0);
        (Selector(id, st, kids[cursor := c.0], cursor, flags), head + c.1)
      else
        (n, head)
    case Sequence(id, st, kids, cursor) =>
      if s == Idle then
        assert ShapeOf(kids[cursor]) == ShapeOf(n).parts[cursor];
        IdsOfPart(ShapeOf(n).parts, cursor);
        var c := Reset(kids[cursor]);
        ShapesUpdate(kids, cursor, c.0);
        (Sequence(id, st, kids[cursor := c.0], cursor), head + c.1)
      else
        (n, head)
    case Parallel(id, st, kids, t, done, succ, fail) =>
      var c := ResetAll(kids, 0, ShapeOf(n));
      (Parallel(id, st, c.0, t, done, succ, fail), head + c.1)
  }

  /** BehaviorNode::Reset: a RUNNING node becomes IDLE and terminates with IDLE; any other node is left alone. */
  function Reset(n: Node): (r: (Node, seq<Event>))
    requires Valid(n)
    ensures Valid(r.0) && ShapeOf(r.0) == ShapeOf(n)
    ensures r.0.status != Running
    ensures n.status != Running ==> r == (n, [])
    ensures n.status == Running ==>
              && r.0.status == Idle && |r.1| > 0 && r.1[0] == Terminated(n.id, Idle)
              && Within(r.1[1..], Inner(ShapeOf(n)))
    ensures Within(r.1, Ids(ShapeOf(n)))
    decreases ShapeOf(n), 2
  {
    if n.status != Running then (n, [])
    else OnTerminate(n.(status := Idle), Idle)
  }

  /** Reset every child from index i on, in order (ParallelNode::OnTerminate). */
  function ResetAll(kids: seq<Node>, i: nat, ghost shape: Shape): (r: (seq<Node>, seq<Event>))
    requires i <= |kids|
    requires shape.Branch? && shape.parts == ShapesOf(kids) && AllValid(kids)
    ensures |r.0| == |kids| && ShapesOf(r.0) == ShapesOf(kids) && AllValid(r.0)
    ensures Within(r.1, IdsOfAll(shape.parts))
    ensures forall k :: 0 <= k < i ==> r.0[k] == kids[k]
    ensures forall k :: i <= k < |kids| ==>
              r.0[k].status != Running && (kids[k].status != Running ==> r.0[k] == kids[k])
    decreases shape, 0, |kids| - i
  {
    if i == |kids| then
      (kids, [])
    else
      assert ShapeOf(kids[i]) == shape.parts[i];
      IdsOfPart(shape.parts, i);
      var c := Reset(kids[i]);
      ShapesUpdate(kids, i, c.0);
      var rest := ResetAll(kids[i := c.0], i + 1, shape);
      (rest.0, c.1 + rest.1)
  }
}

=== FILE: lifecycle.dfy ===
/**
  The lifecycle of one node as BehaviorNode::Run and BehaviorNode::Reset drive it
  (behavior_tree/behavior_node.h:82-146): OnInitialize opens an activation unless the
  node is RUNNING, OnTerminate closes it whenever the status settles, and over any
  sequence of ticks and resets the two strictly alternate.
*/
module Lifecycle {
  import opened Nodes
  import opened Engine

  /** The events of the node with id `id`, in order. */
  function Own(log: seq<Event>, id: nat): (r: seq<Event>)
    ensures |r| <= |log|
    ensures forall e :: e in r <==> e in log && e.id == id
    decreases |log|
  {
    if |log| == 0 then []
    else (if log[0].id == id then [log[0]] else []) + Own(log[1..], id)
  }

  lemma {:induction false} OwnConcat(a: seq<Event>, b: seq<Event>, id: nat)
    ensures Own(a + b, id) == Own(a, id) + Own(b, id)
    decreases |a|
  {
    if |a| == 0 {
      assert a + b == b;
    } else {
      var head := if a[0].id == id then [a[0]] else [];
      assert (a + b)[0] == a[0] && (a + b)[1..] == a[1..] + b;
      OwnConcat(a[1..], b, id);
      calc {
        Own(a + b, id);
        head + Own(a[1..] + b, id);
        head + (Own(a[1..], id) + Own(b, id));
        (head + Own(a[1..], id)) + Own(b, id);
        Own(a, id) + Own(b, id);
      }
    }
  }

  lemma OwnNone(log: seq<Event>, ids: set<nat>, id: nat)
    requires Within(log, ids) && id !in ids
    ensures Own(log, id) == []
  {
    if Own(log, id) != [] {
      assert Own(log, id)[0] in Own(log, id);
    }
  }

  /** The events of node `id` within a run, given that no descendant and no cancelled sibling shares its id. */
  function Activation(before: Status, after: Status, id: nat): seq<Event>
  {
    (if before == Running then [] else [Initialized(id)]) + (if after == Running then [] else [Terminated(id, after)])
  }

  /**
    One Run of a node: it is initialised iff it was not RUNNING, and terminated, with
    exactly the status Update returned, iff that status is not RUNNING.
  */
  lemma RunLifecycle<C>(env: Env<C>, n: Node, slot: Slot, ctx: C)
    requires Valid(n) && n.id !in Inner(ShapeOf(n)) && n.id !in Mentioned(SlotLog(slot))
    ensures Own(Run(env, n, slot, ctx).log, n.id) == Activation(n.status, Run(env, n, slot, ctx).status, n.id)
  {
    var b := Begin(env, n, ctx);
    var u := Update(env, b.0, slot, b.1);
    assert Run(env, n, slot, ctx) == Conclude(n, u);
    ShapeFacts(n);
    ShapeFacts(u.node);
    OwnNone(u.log, Inner(ShapeOf(n)) + Mentioned(SlotLog(slot)), n.id);
    ConcludeOwn(n, u);
  }

  /** The second half of Run adds the node's own termination, and only that, to the log. */
  lemma ConcludeOwn<C>(n: Node, u: Tick<C>)
    requires Valid(u.node.(status := u.status)) && Terminable(u.node, u.status)
    requires u.node.id == n.id && n.id !in Inner(ShapeOf(u.node)) && Own(u.log, n.id) == []
    ensures Own(Conclude(n, u).log, n.id) == Activation(n.status, u.status, n.id)
  {
    var r := Conclude(n, u);
    var pre := Opening(n) + u.log;
    var opening := if n.status == Running then [] else [Initialized(n.id)];
    OwnConcat(Opening(n), u.log, n.id);
    OwnSingle(Opening(n), n.id);
    assert Own(pre, n.id) == opening;
    if r.status == Running {
      assert r.log == pre;
      assert Activation(n.status, u.status, n.id) == opening + [];
    } else {
      var t := Terminated(u.node.id, u.status);
      ClosingOwn(r.log, pre, n.id, t, Inner(ShapeOf(u.node)));
      OwnSingle([t], n.id);
      assert Activation(n.status, u.status, n.id) == opening + [t];
    }
  }

  /** A log of at most one event, all of node `id`, is its own projection. */
  lemma OwnSingle(log: seq<Event>, id: nat)
    requires |log| <= 1 && forall e :: e in log ==> e.id == id
    ensures Own(log, id) == log
  {
    if |log| == 1 {
      assert log[0] in log && log[1..] == [];
    }
  }

  /** A log made of `pre`, one event `t`, and events of other nodes only. */
  lemma ClosingOwn(log: seq<Event>, pre: seq<Event>, id: nat, t: Event, ids: set<nat>)
    requires |log| > |pre| && log[..|pre| + 1] == pre + [t]
    requires Within(log[|pre| + 1..], ids) && id !in ids
    ensures Own(log, id) == Own(pre, id) + Own([t], id)
  {
    var tail := log[|pre| + 1..];
    assert log == pre + [t] + tail by {
      assert log == log[..|pre| + 1] + tail;
    }
    OwnNone(tail, ids, id);
    OwnConcat(pre, [t], id);
    OwnConcat(pre + [t], tail, id);
  }

  /** The status Run stores and returns is exactly Update's result. */
  lemma RunReturnsUpdate<C>(env: Env<C>, n: Node, slot: Slot, ctx: C)
    requires Valid(n)
    ensures var b := Begin(env, n, ctx);
            Run(env, n, slot, ctx).status == Update(env, b.0, slot, b.1).status
                                         == Run(env, n, slot, ctx).node.status
  {
  }

  /** Reset terminates a RUNNING node once, with IDLE, and does nothing to any other node. */
  lemma ResetLifecycle(n: Node)
    requires Valid(n) && n.id !in Inner(ShapeOf(n))
    ensures Own(Reset(n).1, n.id) == (if n.status == Running then [Terminated(n.id, Idle)] else [])
  {
    var r := Reset(n);
    if n.status == Running {
      assert r.1 == [r.1[0]] + r.1[1..];
      OwnNone(r.1[1..], Inner(ShapeOf(n)), n.id);
      OwnConcat([r.1[0]], r.1[1..], n.id);
    }
  }

  /** What the tree driver does to the root each frame: Run it, or Reset it from outside. */
  datatype Command = RunOnce | ResetOnce

  /** One command applied to the root: the new root, the new context and the events. */
  function Apply<C>(env: Env<C>, n: Node, ctx: C, cmd: Command): (r: (Node, C, seq<Event>))
    requires Valid(n)
    ensures Valid(r.0) && ShapeOf(r.0) == ShapeOf(n)
  {
    match cmd
    case RunOnce =>
      var t := Run(env, n, Detached, ctx);
      (t.node, t.ctx, t.log)
    case ResetOnce =>
      var t := Reset(n);
      (t.0, ctx, t.1)
  }

  /** The root after a sequence of commands, with the final context and every event on the way. */
  function Drive<C>(env: Env<C>, n: Node, ctx: C, cmds: seq<Command>): (r: (Node, C, seq<Event>))
    requires Valid(n)
    ensures Valid(r.0) && ShapeOf(r.0) == ShapeOf(n)
    decreases |cmds|
  {
    if |cmds| == 0 then (n, ctx, [])
    else
      var t := Apply(env, n, ctx, cmds[0]);
      var rest := Drive(env, t.0, t.1, cmds[1..]);
      (rest.0, rest.1, t.2 + rest.2)
  }

  /**
    `evs` alternates initialisations and terminations, starting inside an activation
    iff `open`, and ending inside one iff `close`.
  */
  predicate Alternates(evs: seq<Event>, open: bool, close: bool)
    decreases |evs|
  {
    if |evs| == 0 then open == close
    else if evs[0].Initialized? then !open && Alternates(evs[1..], true, close)
    else open && Alternates(evs[1..], false, close)
  }

  lemma {:induction false} AlternatesConcat(a: seq<Event>, b: seq<Event>, open: bool, mid: bool, close: bool)
    requires Alternates(a, open, mid) && Alternates(b, mid, close)
    ensures Alternates(a + b, open, close)
    decreases |a|
  {
    if |a| == 0 {
      assert a + b == b;
    } else {
      assert (a + b)[0] == a[0] && (a + b)[1..] == a[1..] + b;
      AlternatesConcat(a[1..], b, !open, mid, close);
      assert Alternates(a[1..] + b, !open, close);
    }
  }

  lemma ActivationAlternates(before: Status, after: Status, id: nat)
    ensures Alternates(Activation(before, after, id), before == Running, after == Running)
  {
  }

  /** One command opens an activation of the root only if none is open, and closes it only if one is. */
  lemma ApplyAlternates<C>(env: Env<C>, n: Node, ctx: C, cmd: Command)
    requires Valid(n) && n.id !in Inner(ShapeOf(n))
    ensures Alternates(Own(Apply(env, n, ctx, cmd).2, n.id), n.status == Running,
                       Apply(env, n, ctx, cmd).0.status == Running)
  {
    match cmd
    case RunOnce =>
      RunLifecycle(env, n, Detached, ctx);
      ActivationAlternates(n.status, Run(env, n, Detached, ctx).status, n.id);
    case ResetOnce =>
      ResetLifecycle(n);
  }

  /**
    Over any sequence of ticks and resets, the root's own events alternate: an
    activation is opened only when none is open and closed only when one is, and an
    activation is open exactly while the root is RUNNING.
  */
  lemma {:induction false} DriveAlternates<C>(env: Env<C>, n: Node, ctx: C, cmds: seq<Command>)
    requires Valid(n) && n.id !in Inner(ShapeOf(n))
    ensures Alternates(Own(Drive(env, n, ctx, cmds).2, n.id), n.status == Running,
                       Drive(env, n, ctx, cmds).0.status == Running)
    decreases |cmds|
  {
    if |cmds| > 0 {
      var t := Apply(env, n, ctx, cmds[0]);
      ApplyAlternates(env, n, ctx, cmds[0]);
      ShapeFacts(n);
      ShapeFacts(t.0);
      DriveAlternates(env, t.0, t.1, cmds[1..]);
      var rest := Drive(env, t.0, t.1, cmds[1..]);
      OwnConcat(t.2, rest.2, n.id);
      AlternatesConcat(Own(t.2, n.id), Own(rest.2, n.id), n.status == Running, t.0.status == Running,
                       rest.0.status == Running);
    }
  }
}

=== FILE: nodes.dfy ===
/**
  The data model of the behaviour-tree node engine (behavior_tree/behavior_node.h):
  node statuses, abort types, the five node kinds with their per-node state, the
  state-erased skeleton of a tree, and the well-formedness invariant that every
  Run and Reset preserves.
*/
module Nodes {
  import opened Wrappers

  /** BehaviorState. */
  datatype Status = Idle | Running | Success | Failure

  /** AbortType of a precondition node. */
  datatype Abort = AbortNone | AbortSelf | AbortLowPriority | AbortBoth

  /** A lifecycle event, recorded when a node enters OnInitialize or OnTerminate. */
  datatype Event = Initialized(id: nat) | Terminated(id: nat, status: Status)

  /**
    A node together with all the state it keeps across ticks. `id` stands for the
    node's name; a leaf action is an oracle identified by its id; a guard is an
    oracle identified by a guard id (None when no guard function was supplied).
    The selector keeps one reevaluation flag per child; the parallel node keeps one
    done flag per child and its two counters.
  */
  datatype Node =
    | Action(id: nat, status: Status)
    | Precondition(id: nat, status: Status, guard: Option<nat>, abort: Abort, child: Node)
    | Selector(id: nat, status: Status, children: seq<Node>, cursor: nat, reevaluate: seq<bool>)
    | Sequence(id: nat, status: Status, children: seq<Node>, cursor: nat)
    | Parallel(id: nat, status: Status, children: seq<Node>, threshold: nat,
               done: seq<bool>, successes: nat, failures: nat)

  /** The topology of a tree with all run-time state erased; fixed once assembled. */
  datatype Kind = SelectorKind | SequenceKind | ParallelKind(threshold: nat)
  datatype Shape =
    | Leaf(id: nat)
    | Gate(id: nat, guard: Option<nat>, abort: Abort, body: Shape)
    | Branch(id: nat, kind: Kind, parts: seq<Shape>)

  ghost function ShapeOf(n: Node): Shape
    decreases n
  {
    match n
    case Action(id, _) => Leaf(id)
    case Precondition(id, _, g, a, c) => Gate(id, g, a, ShapeOf(c))
    case Selector(id, _, kids, _, _) => Branch(id, SelectorKind, ShapesOf(kids))
    case Sequence(id, _, kids, _) => Branch(id, SequenceKind, ShapesOf(kids))
    case Parallel(id, _, kids, t, _, _, _) => Branch(id, ParallelKind(t), ShapesOf(kids))
  }

  ghost function ShapesOf(ns: seq<Node>): seq<Shape>
    decreases ns
  {
    seq(|ns|, k requires 0 <= k < |ns| => ShapeOf(ns[k]))
  }

  /** A node keeps its kind, id, guard and abort type under any change of run-time state. */
  lemma ShapeFacts(n: Node)
    ensures ShapeOf(n).id == n.id
    ensures ShapeOf(n).Gate? <==> n.Precondition?
    ensures n.Precondition? ==> ShapeOf(n).abort == n.abort && ShapeOf(n).guard == n.guard
    ensures ShapeOf(n).Branch? <==> (n.Selector? || n.Sequence? || n.Parallel?)
    ensures ShapeOf(n).Branch? ==> |ShapeOf(n).parts| == |n.children|
  {
  }

  /** Replacing one child by a node of the same shape leaves the children's shapes alone. */
  lemma ShapesUpdate(ns: seq<Node>, k: nat, x: Node)
    requires k < |ns| && ShapeOf(x) == ShapeOf(ns[k])
    ensures ShapesOf(ns[k := x]) == ShapesOf(ns)
  {
    assert forall j :: 0 <= j < |ns| ==> ShapesOf(ns[k := x])[j] == ShapesOf(ns)[j];
  }

  /** The selector flags a child for reevaluation iff it is a precondition with abort LOW_PRIORITY or BOTH. */
  predicate Reevaluates(s: Shape)
  {
    s.Gate? && (s.abort == AbortLowPriority || s.abort == AbortBoth)
  }

  ghost predicate FlagsMatch(flags: seq<bool>, parts: seq<Shape>)
  {
    |flags| == |parts| && forall k :: 0 <= k < |parts| ==> flags[k] == Reevaluates(parts[k])
  }

  /** Ids of every node of a skeleton, and of its proper descendants. */
  ghost function Ids(s: Shape): set<nat>
    decreases s, 1
  {
    {s.id} + Inner(s)
  }

  ghost function Inner(s: Shape): set<nat>
    decreases s, 0
  {
    match s
    case Leaf(_) => {}
    case Gate(_, _, _, b) => Ids(b)
    case Branch(_, _, ps) => IdsOfAll(ps)
  }

  ghost function IdsOfAll(ps: seq<Shape>): set<nat>
    decreases ps
  {
    set k, x | 0 <= k < |ps| && x in Ids(ps[k]) :: x
  }

  lemma IdsOfPart(ps: seq<Shape>, k: nat)
    requires k < |ps|
    ensures Ids(ps[k]) <= IdsOfAll(ps)
  {
    forall x | x in Ids(ps[k]) ensures x in IdsOfAll(ps) {
    }
  }

  /** Every event of `log` belongs to a node whose id is in `ids`. */
  ghost predicate Within(log: seq<Event>, ids: set<nat>)
  {
    forall e :: e in log ==> e.id in ids
  }

  ghost function Mentioned(log: seq<Event>): set<nat>
  {
    set e | e in log :: e.id
  }

  /** Number of set flags. */
  function Count(bs: seq<bool>): (c: nat)
    ensures c <= |bs|
  {
    if |bs| == 0 then 0 else (if bs[0] then 1 else 0) + Count(bs[1..])
  }

  lemma {:induction false} CountSet(bs: seq<bool>, i: nat)
    requires i < |bs| && !bs[i]
    ensures Count(bs[i := true]) == Count(bs) + 1
    decreases i
  {
    if i > 0 {
      assert bs[i := true][1..] == bs[1..][i - 1 := true];
      CountSet(bs[1..], i - 1);
    } else {
      assert bs[i := true][1..] == bs[1..];
    }
  }

  lemma {:induction false} CountFull(bs: seq<bool>, i: nat)
    requires Count(bs) == |bs| && i < |bs|
    ensures bs[i]
    decreases i
  {
    if i > 0 {
      CountFull(bs[1..], i - 1);
    }
  }

  lemma {:induction false} CountNone(n: nat)
    ensures Count(seq(n, _ => false)) == 0
  {
    if n > 0 {
      assert seq(n, _ => false)[1..] == seq(n - 1, _ => false);
      CountNone(n - 1);
    }
  }

  /**
    Per-activation bookkeeping of a parallel node while it is RUNNING: one done flag
    per child, neither threshold crossed, and one count per concluded child.
  */
  predicate FanInv(size: nat, threshold: nat, done: seq<bool>, successes: nat, failures: nat)
  {
    && |done| == size
    && successes < threshold
    && (failures == 0 || failures < size - threshold)
    && Count(done) == successes + failures
  }

  /** A composite's cursor is a valid index whenever it has children, and a RUNNING composite has children. */
  predicate CursorOk(status: Status, size: nat, cursor: nat)
  {
    && (if size == 0 then cursor == 0 else cursor < size)
    && (status == Running ==> size > 0)
  }

  /** The well-formedness invariant of an assembled tree. */
  ghost predicate Valid(n: Node)
    decreases n, 1
  {
    match n
    case Action(_, _) => true
    case Precondition(_, _, _, _, c) => Valid(c)
    case Selector(_, st, kids, cur, flags) =>
      CursorOk(st, |kids|, cur) && FlagsMatch(flags, ShapesOf(kids)) && AllValid(kids)
    case Sequence(_, st, kids, cur) =>
      CursorOk(st, |kids|, cur) && AllValid(kids)
    case Parallel(_, st, kids, t, done, s, f) =>
      && (|kids| > 0 ==> 1 <= t <= |kids|)
      && (st == Running ==> FanInv(|kids|, t, done, s, f))
      && AllValid(kids)
  }

  ghost predicate AllValid(ns: seq<Node>)
    decreases ns, 0
  {
    forall k :: 0 <= k < |ns| ==> Valid(ns[k])
  }

  /** The per-activation state right after OnInitialize: cursor 0, or cleared parallel bookkeeping. */
  predicate Restarted(n: Node)
  {
    match n
    case Selector(_, _, _, cur, _) => cur == 0
    case Sequence(_, _, _, cur) => cur == 0
    case Parallel(_, _, kids, _, done, s, f) =>
      s == 0 && f == 0 && |done| == |kids| && forall k :: 0 <= k < |done| ==> !done[k]
    case _ => true
  }

  /** A node's validity is inherited by its children. */
  lemma ValidParts(n: Node)
    requires Valid(n)
    ensures n.Precondition? ==> Valid(n.child)
    ensures (n.Selector? || n.Sequence? || n.Parallel?) ==> AllValid(n.children)
  {
  }

  lemma ValidChild(n: Node, k: nat)
    requires Valid(n) && (n.Selector? || n.Sequence? || n.Parallel?) && k < |n.children|
    ensures Valid(n.children[k])
  {
    ValidParts(n);
  }

  /** OnTerminate(IDLE) of a selector or sequence indexes the child at the cursor, so there must be one. */
  predicate Terminable(n: Node, s: Status)
  {
    s == Idle && (n.Selector? || n.Sequence?) ==> |n.children| > 0
  }

  /** What Update needs on entry besides Valid: a parallel node's bookkeeping is in place. */
  ghost predicate Ready(n: Node)
  {
    n.Parallel? && |n.children| > 0 ==> FanInv(|n.children|, n.threshold, n.done, n.successes, n.failures)
  }
}

=== FILE: scenario.dfy ===
/**
  The tree main.cpp assembles (main.cpp:13-51), with its three guards read from the
  blackboard, and what its first tick does from a fresh blackboard.

  Node ids: 0 position_selector, 1 is_schoolover_condition, 2 is_mine_condition,
  3 home_selector, 4 home_parallel, 5 school_sequence, 6 mine_selector,
  7 is_rich_or_energy_low_condition, 8 is_energy_low_condition, 9 rest_action,
  10 minning_action, 11 heat_water_action, 12 go_school_action,
  13 go_home_from_school_action, 14 go_home_from_mine_action,
  15 go_mine_from_home_action.
*/
module Scenario {
  import opened Wrappers
  import opened Nodes
  import opened Engine
  import opened Assembly
  import opened Blackboard
  import opened Composites

  /** Guard ids: 0 isSchoolOver, 1 isMine, anything else isEnergyLow. */
  predicate Guard(g: nat, b: Board)
  {
    if g == 0 then IsSchoolOver(b) else if g == 1 then IsMine(b) else IsEnergyLow(b)
  }

  /** The program's guards over the blackboard, with the leaf actions left as oracles. */
  function World(start: (nat, Board) -> Board, step: (nat, Board) -> (Status, Board)): Env<Board>
  {
    Env(Guard, start, step)
  }

  function School(): (r: Node)
    ensures Valid(r) && r.Sequence? && |r.children| == 2 && r.status == Idle
  {
    var cs := [NewAction(12), NewAction(13)];
    AttachStaged(NewSequence(5), cs);
    StagedValid(Attach(NewSequence(5), cs));
    Attach(NewSequence(5), cs)
  }

  function MineBranch(): (r: Node)
    ensures Valid(r) && r.Selector? && |r.children| == 2 && r.status == Idle
  {
    var cs := [NewPrecondition(7, Some(2), AbortSelf, NewAction(14)), NewAction(10)];
    AttachStaged(NewSelector(6), cs);
    StagedValid(Attach(NewSelector(6), cs));
    Attach(NewSelector(6), cs)
  }

  function HomeParallel(): (r: Node)
    ensures Valid(r) && r.Parallel? && |r.children| == 2 && r.threshold == 2 && r.status == Idle
  {
    var cs := [NewAction(11), NewAction(9)];
    AttachStaged(NewParallel(4, 2), cs);
    StagedValid(Attach(NewParallel(4, 2), cs));
    Attach(NewParallel(4, 2), cs)
  }

  function HomeBranch(): (r: Node)
    ensures Valid(r) && r.Selector? && r.status == Idle
    ensures r.children == [NewPrecondition(8, Some(2), AbortSelf, HomeParallel()), NewAction(15)]
  {
    var cs := [NewPrecondition(8, Some(2), AbortSelf, HomeParallel()), NewAction(15)];
    assert [] + cs == cs;
    AttachStaged(NewSelector(3), cs);
    StagedValid(Attach(NewSelector(3), cs));
    Attach(NewSelector(3), cs)
  }

  /** The root position_selector with its three children, in the order main.cpp adds them. */
  function MainTree(): (r: Node)
    ensures Valid(r) && r.Selector? && r.status == Idle
    ensures r.children == [NewPrecondition(1, Some(0), AbortBoth, School()),
                           NewPrecondition(2, Some(1), AbortSelf, MineBranch()),
                           HomeBranch()]
  {
    var cs := [NewPrecondition(1, Some(0), AbortBoth, School()),
               NewPrecondition(2, Some(1), AbortSelf, MineBranch()),
               HomeBranch()];
    assert [] + cs == cs;
    AttachStaged(NewSelector(0), cs);
    StagedValid(Attach(NewSelector(0), cs));
    Attach(NewSelector(0), cs)
  }

  /**
    Only is_schoolover_condition (abort BOTH) is re-evaluated while a lower-priority
    branch runs; is_mine_condition (abort SELF) and home_selector are not.
  */
  lemma MainTreeFlags()
    ensures MainTree().reevaluate == [true, false, false]
  {
    var cs := [NewPrecondition(1, Some(0), AbortBoth, School()),
               NewPrecondition(2, Some(1), AbortSelf, MineBranch()),
               HomeBranch()];
    var r := Attach(NewSelector(0), cs);
    assert MainTree() == r;
    AttachFlags(NewSelector(0), cs);
    assert cs[0].Precondition? && cs[0].abort == AbortBoth;
    assert cs[1].Precondition? && cs[1].abort == AbortSelf;
    assert cs[2].Selector?;
    assert r.reevaluate[0] && !r.reevaluate[1] && !r.reevaluate[2];
  }

  /**
    The first tick from a fresh blackboard (at home, energy 100): both guarded
    branches of position_selector are denied, home_selector's energy guard is denied,
    and go_mine_from_home_action runs; its result is the result of the whole tree.
  */
  lemma FirstTick(start: (nat, Board) -> Board, step: (nat, Board) -> (Status, Board))
    ensures Run(World(start, step), MainTree(), Detached, Fresh()).status == step(15, start(15, Fresh())).0
  {
    RootClosed(start, step);
    LastChildDecides(World(start, step), MainTree(), Detached, Fresh());
    HomeTick(start, step);
  }

  /** On a fresh blackboard school is not over and the agent is not at the mine: both guarded branches are closed. */
  lemma RootClosed(start: (nat, Board) -> Board, step: (nat, Board) -> (Status, Board))
    ensures forall k :: 0 <= k < |MainTree().children| - 1 ==> Closed(World(start, step), MainTree().children, k, Fresh())
  {
    var kids := MainTree().children;
    FreshState();
    assert Closed(World(start, step), kids, 0, Fresh());
    assert Closed(World(start, step), kids, 1, Fresh());
    forall k | 0 <= k < |kids| - 1 ensures Closed(World(start, step), kids, k, Fresh()) {
      assert k == 0 || k == 1;
    }
  }

  /** home_selector on a fresh blackboard: the energy guard is false, so go_mine_from_home_action runs. */
  lemma HomeTick(start: (nat, Board) -> Board, step: (nat, Board) -> (Status, Board))
    ensures Run(World(start, step), HomeBranch(), Sibling(2, 2, []), Fresh()).status == step(15, start(15, Fresh())).0
  {
    HomeClosed(start, step);
    LastChildDecides(World(start, step), HomeBranch(), Sibling(2, 2, []), Fresh());
    LeafRun(World(start, step), NewAction(15), Sibling(1, 1, []), Fresh());
  }

  /** On a fresh blackboard the energy is not low: home_selector's guarded branch is closed. */
  lemma HomeClosed(start: (nat, Board) -> Board, step: (nat, Board) -> (Status, Board))
    ensures forall k :: 0 <= k < |HomeBranch().children| - 1 ==> Closed(World(start, step), HomeBranch().children, k, Fresh())
  {
    FreshState();
    assert Closed(World(start, step), HomeBranch().children, 0, Fresh());
  }
}

=== FILE: wrappers.dfy ===
/** Optional values, used where the source leaves a value absent or unset. */
module Wrappers {

  datatype Option<+T> = None | Some(value: T)
}
